=== FILE: README.md ===
# Bulk organization onboarding — a Dafny model

This project models the core of a Laravel service that onboards organizations in bulk.
The service works in three stages:

- **Entry gate.** A POST of a JSON list of `{name, domain, contact_email}` items first
  passes a form request's validation rules. It then passes a cap of 1000 items per request.
- **Ingestion.** In one database transaction the service does three things. It creates a
  `batches` row. It inserts the items into `organizations` with insert-or-ignore on the
  unique `domain` column, in chunks of 500. It then queues one onboarding task per row
  that landed in the new batch. An exception before `DB::commit()` rolls the transaction
  back and surfaces as HTTP 500. Success answers HTTP 202.
- **Worker.** Each task (`ProcessOrganizationOnboarding`) reads its row. It skips the row
  unless the status is `pending`. Otherwise it moves the row to `processing`, runs the
  onboarding action, and ends in one of three states:
  - `completed`, with `processed_at` set and the batch counter raised by one;
  - `failed`, with the reason set and the exception re-thrown;
  - still `processing`, when the attempt stops before its catch block runs.
  When the queue gives up on a task, the `failed` handler marks the row `failed` with an
  attempt-qualified reason.

The database is a value: `Schema.Store` holds both tables as maps plus the two
auto-increment counters. Every operation is a pure function of a `Store`, or a method
whose result equals one. The modules follow the source classes:

| module | models |
|---|---|
| `Schema` | the `organizations` table (its migration), the `batches` row, and the invariants `Valid` (fresh counters, unique domains) and `BatchRefsBelow` |
| `BatchRepository`, `OrganizationRepository` | the two repositories |
| `BulkOnboardService` | `processBulkOnboarding` |
| `OnboardingJob` | `handle`, `failed`, `updateOrganizationStatus`, `updateBatchProgress`, `uniqueId` and the retry constants |
| `BulkOnboardRequest` | the validation rules and `failedValidation` |
| `BulkOnboardController` | `store` |
| `Progress` | arbitrary interleavings of ingestions, deliveries and give-up callbacks, each one atomic step |
| `Common`, `Decimal` | `Option`/`Result`, PHP truthiness, decimal rendering of ids |

The main system results:

- Over any trace, the `processed_organizations` of a batch plus its still-pending rows
  never exceeds `total_organizations` (`Progress.RunKeepsBatchBound`). So every batch
  reachable from the empty database has its counter within its total
  (`Progress.ReachableWithinBound`).
- Over the queue events that follow an ingestion, the new batch's counter equals the
  number of its rows that a delivery moved from `pending` to `completed`
  (`Progress.ProcessedCountsCompletions`, `Progress.BatchProgressAfterIngest`).
- A status never returns to `pending` (`Progress.NeverPendingAgain`). A second delivery
  of a task is a no-op (`Progress.HandleTwiceIsNoOp`).

Behaviours of the code that are easy to miss:

- A successful delivery does not clear `failed_reason`. `updateOrganizationStatus` writes
  only the arguments that PHP treats as true, so an empty message or `"0"` is never
  written either.
- The batch row stores the number of input items as `total_organizations`. The response
  reports the number of rows actually inserted.
- When items were skipped as duplicates, the counter of their batch can therefore never
  reach `total_organizations` (`Progress.ProcessedWithinDispatched`).
- The re-throw in `handle` (app/Jobs/ProcessOrganizationOnboarding.php:117-131) does not
  lead to a second try of the onboarding work. The comment there and the `tries` and
  `backoff` settings intend one. But the throwing attempt has already marked the row
  `failed`, and the next attempt skips any row that is not `pending`, then returns
  normally (`OnboardingJob.RetryAfterThrowSkips`, `Progress.HandleTwiceIsNoOp`).
  As a result, `failed()` is reached only when every attempt throws or an attempt times
  out (`failOnTimeout` is set). A missing row makes every attempt throw, because
  `findOrFail` raises each time.
- An attempt can stop after the `processing` write (app/Jobs/ProcessOrganizationOnboarding.php:91)
  and before the catch block runs. Three things cause this: the timeout or a worker crash
  kills the attempt, the log call at lines 93-98 (outside the `try`) throws, or a
  `Throwable` that is not an `Exception` escapes the `catch` at line 117. The row is then
  stranded in `processing`. Every later attempt skips it and returns normally, so it is
  never completed or counted. Only the `failed()` callback moves it on, to `failed`
  (`OnboardingJob.AbortedStrandsRow`).
- The log call after `DB::commit()` (app/Services/BulkOnboardService.php:64-69) is still
  inside the `try`. If it throws, the `DB::rollBack()` in the catch block has nothing to
  undo. The controller answers 500, yet the batch, the rows and the queued tasks remain
  (`BulkOnboardController.ServerErrorOverCommittedBatch`). A 500 therefore does not always
  mean that nothing happened.
- The job's `uniqueId` is `"org_onboarding_" + id`. The queue does not use it to drop
  duplicates, since the class is not `ShouldBeUnique`, and the worker takes no lock. So
  nothing in the code stops two deliveries of one row from overlapping. If they did, both could pass the `pending`
  check at line 79 before either writes `processing` at line 91, and the batch counter
  would rise twice for one row. The model assumes that deliveries of the same row never
  overlap: each delivery is one atomic step. Deliveries may still repeat one after
  another, and such a repeat is a no-op.

## Model

| member | source | states |
|---|---|---|
| `Decimal.ParseNatToString` | app/Jobs/ProcessOrganizationOnboarding.php:55 | the decimal rendering of an id reads back as that id, so the id in a job's uniqueId is recoverable |
| `OnboardingJob.UniqueId` | app/Jobs/ProcessOrganizationOnboarding.php:52-67 | the job's uniqueId is "org_onboarding_" followed by the canonical decimal digits of the organization id, without leading zeros |
| `OnboardingJob.UniqueIdInjective` | app/Jobs/ProcessOrganizationOnboarding.php:55 | different organization ids give different uniqueId values |
| `OnboardingJob.UpdateOrganizationStatus` | app/Jobs/ProcessOrganizationOnboarding.php:176-194 | only the row with the job's id changes; status is always written; failed_reason only when truthy and processed_at only when given; a missing row leaves the store unchanged |
| `OnboardingJob.UpdateBatchProgress` | app/Jobs/ProcessOrganizationOnboarding.php:199-204 | the owning batch's processed count rises by exactly one; a null or dangling batch id changes nothing; no other batch or row changes |
| `OnboardingJob.UpdateBatchProgressIsIncrementProcessed` | app/Repositories/BatchRepository.php:24-27 | on an existing batch the worker's increment equals the repository's incrementProcessed |
| `OnboardingJob.Handle` | app/Jobs/ProcessOrganizationOnboarding.php:72-132 | missing row: ModelNotFound error, no change; not pending: no change at all; pending and success: completed, processed_at = now, prior reason kept, batch count + 1; pending and failure: failed, truthy message recorded, batch untouched, error re-thrown; pending and stopped before the catch: left in processing, batch untouched; nothing else changes |
| `OnboardingJob.RetryAfterThrowSkips` | app/Jobs/ProcessOrganizationOnboarding.php:79-131 | after an attempt whose action throws, the row is failed and the next attempt returns normally without changing anything, so the action never runs again |
| `OnboardingJob.AbortedStrandsRow` | app/Jobs/ProcessOrganizationOnboarding.php:79-143 | an attempt stopped between the processing write and the catch leaves the row processing; every later attempt is a no-op that returns normally; only the give-up handler moves it, to failed |
| `OnboardingJob.PermanentFailureReason` | app/Jobs/ProcessOrganizationOnboarding.php:141-143 | the reason is "Job failed after 3 attempts: " followed by the message, and it is truthy |
| `OnboardingJob.FailedHandler` | app/Jobs/ProcessOrganizationOnboarding.php:137-143 | whatever the status, the row becomes failed with the attempt-qualified reason; no batch and no other row changes; a missing id changes nothing |
| `BatchRepository.CreateBatch` | app/Repositories/BatchRepository.php:9-17 | a batch under a fresh key with status "pending", the given total and count 0; the organizations are untouched and the invariants are kept |
| `BatchRepository.UpdateTotalOrganizations` | app/Repositories/BatchRepository.php:19-22 | fails exactly when the batch is missing; otherwise sets that batch's total and changes nothing else |
| `BatchRepository.CreateThenUpdateTotal` | app/Repositories/BatchRepository.php:9-22 | creating a batch and then setting its total equals creating it with that total, and reading the batch back gives the new total |
| `BatchRepository.IncrementProcessed` | app/Repositories/BatchRepository.php:24-27 | fails exactly when the batch is missing; otherwise raises that batch's count by one and changes nothing else |
| `OrganizationRepository.ToOrganization` | database/migrations/2026_01_10_062514_create_organizations_table.php:16-22 | an inserted row keeps the given name, domain, email and batch id, takes status pending when none is given, and has null processed_at and failed_reason |
| `OrganizationRepository.CreateBatch` | app/Repositories/OrganizationRepository.php:14-17 | the batch is stored with exactly the given fields under a fresh key, and nothing else changes |
| `OrganizationRepository.InsertAll` | app/Repositories/OrganizationRepository.php:28 | the insert-or-ignore fold counts at most one row per input row, advances the id counter by that count, and leaves the batches alone |
| `OrganizationRepository.InsertAllValid` | database/migrations/2026_01_10_062514_create_organizations_table.php:17 | the insert keeps the domains unique and the counters fresh |
| `OrganizationRepository.InsertAllKeepsExisting` | app/Repositories/OrganizationRepository.php:28 | existing rows are never altered; new rows take fresh consecutive keys; the table grows by exactly the count |
| `OrganizationRepository.InsertAllDomains` | app/Repositories/OrganizationRepository.php:28 | afterwards the stored domains are the old ones plus the input's |
| `OrganizationRepository.InsertAllAddsOnlyInputRows` | app/Repositories/OrganizationRepository.php:28 | every added row is the stored form of some input row |
| `OrganizationRepository.InsertAllStoresAccepted` | app/Repositories/OrganizationRepository.php:25-32 | the count equals the number of rows whose domain is neither stored nor used earlier in the input, and exactly those rows are stored, in order, under consecutive keys |
| `OrganizationRepository.AcceptedAllFresh` | app/Repositories/OrganizationRepository.php:28 | with all domains new and pairwise distinct, every row is kept |
| `OrganizationRepository.AcceptedDropsRow` | app/Repositories/OrganizationRepository.php:28 | one row whose domain is stored or repeats an earlier one makes the kept count fall short of the input length |
| `OrganizationRepository.AcceptedAllIff` | app/Repositories/OrganizationRepository.php:28 | all rows are kept if and only if no domain is stored already and none repeats |
| `OrganizationRepository.Chunks` | app/Repositories/OrganizationRepository.php:24 | array_chunk: the chunks concatenate back to the input in order, none is empty, none exceeds the size, and all but the last are full |
| `OrganizationRepository.InsertAllAppend` | app/Repositories/OrganizationRepository.php:24-30 | inserting a list in two parts equals inserting it whole, with the counts adding up |
| `OrganizationRepository.BulkInsertOrganizations` | app/Repositories/OrganizationRepository.php:22-33 | the chunked loop of 500-row inserts has the same store and total as one insert-or-ignore over the whole list, and the total is at most the input length |
| `OrganizationRepository.GetOrganizationsByBatch` | app/Repositories/OrganizationRepository.php:38-41 | exactly the rows whose batch_id is the given batch, unchanged |
| `BulkOnboardService.BuildRow` | app/Services/BulkOnboardService.php:33-41 | each candidate row copies name, domain and email, with status pending and the new batch's id |
| `BulkOnboardService.BuildRows` | app/Services/BulkOnboardService.php:32-42 | one candidate row per input item, in order |
| `BulkOnboardService.NewBatchRowsAreAdded` | app/Services/BulkOnboardService.php:48-50 | after the insert, the rows of the new batch are exactly the rows the insert added |
| `BulkOnboardService.AddedRowsComeFromInputs` | app/Services/BulkOnboardService.php:32-45 | every added row is a pending row of the new batch built from one input item |
| `BulkOnboardService.InsertKeepsBatchRefs` | app/Services/BulkOnboardService.php:38 | after the insert no row refers to a batch key not yet handed out |
| `BulkOnboardService.CommitBatch` | app/Services/BulkOnboardService.php:24-28 | a committed call adds a pending batch under a fresh key with total = input length and count 0, leaves old rows untouched and keeps the invariants |
| `BulkOnboardService.CommitRows` | app/Services/BulkOnboardService.php:48-54 | the dispatched ids are exactly the rows the call added, each a pending row of the new batch built from an input item |
| `BulkOnboardService.CommitCount` | app/Services/BulkOnboardService.php:71-75 | the number of tasks equals the number of first-seen new domains, those rows are stored in order under consecutive keys, and the reply is the new batch, that number (at most the input length) and "processing" |
| `BulkOnboardService.CommitIsCommitted` | app/Services/BulkOnboardService.php:19-75 | a call that raises nothing keeps all of the above at once |
| `BulkOnboardService.ProcessBulkOnboarding` | app/Services/BulkOnboardService.php:19-88 | an exception before the commit leaves the store as it was, dispatches nothing and re-throws; an exception from the log call after the commit keeps the committed store and tasks yet re-throws; no exception gives the committed outcome |
| `BulkOnboardRequest.BlankIffAllTrimmable` | app/Http/Requests/BulkOnboardRequest.php:25-26 | a string fails `required` exactly when it consists only of the characters PHP's trim strips |
| `BulkOnboardRequest.FieldViolations` | app/Http/Requests/BulkOnboardRequest.php:25-27 | a wildcard rule reports an item's attribute if and only if it fails the rule, in item order |
| `BulkOnboardRequest.AllViolations` | app/Http/Requests/BulkOnboardRequest.php:24-28 | the error bag lists exactly the failing (item, attribute) pairs |
| `BulkOnboardRequest.NoViolationsIffValid` | app/Http/Requests/BulkOnboardRequest.php:24-28 | the error bag is empty if and only if every item passes all three rules |
| `BulkOnboardRequest.ToInput` | app/Services/BulkOnboardService.php:34-36 | the service reads name and domain as given, and a missing or null email as null |
| `BulkOnboardRequest.Validate` | app/Http/Requests/BulkOnboardRequest.php:16-29 | an empty payload fails with one entry; otherwise validation passes if and only if every item passes every rule, then yields one service input per item, and on failure lists exactly the failing attributes |
| `BulkOnboardController.StoreAction` | app/Http/Controllers/Api/BulkOnboardController.php:16-42 | the code is 202, 422 or 500; 202 if and only if validation passes, there are at most 1000 items and the service raises nothing; validation errors give 422 "Validation failed" with the error bag; over 1000 items gives 422 with the cap message; an exception gives 500 with its message only in debug mode; only 202, or a 500 whose exception came after the commit, changes the store or dispatches; in that 500 case the committed store and tasks remain, and it echoes the new batch and the task count |
| `BulkOnboardController.AcceptedDispatchCount` | app/Http/Controllers/Api/BulkOnboardController.php:27-34 | an accepted request dispatches one task per candidate row the insert keeps |
| `BulkOnboardController.RowDomainsArePayloadDomains` | app/Services/BulkOnboardService.php:32-42 | the candidate rows carry the validated items' domains, item by item |
| `BulkOnboardController.KeepsAllIffFreshDistinct` | app/Repositories/OrganizationRepository.php:28 | every candidate row is kept if and only if the items' domains are new and pairwise distinct |
| `BulkOnboardController.AllDispatchedIff` | app/Services/BulkOnboardService.php:48-54 | an accepted request dispatches one task per item if and only if no domain is stored already and none repeats |
| `BulkOnboardController.FullRequestAccepted` | app/Http/Controllers/Api/BulkOnboardController.php:20-34 | exactly 1000 valid items with new, distinct domains give 202 with total 1000 and 1000 tasks |
| `BulkOnboardController.ServerErrorOverCommittedBatch` | app/Services/BulkOnboardService.php:62-87 | a valid request whose exception comes after the commit gets 500, yet a new batch with total = item count is stored |
| `BulkOnboardController.OverCapRefused` | app/Http/Controllers/Api/BulkOnboardController.php:20-24 | more than 1000 items give 422 and leave the store and the queue untouched |
| `BulkOnboardController.EmptyRefused` | app/Http/Requests/BulkOnboardRequest.php:18-23 | an empty list gives 422 "Validation failed" with the single no-organizations entry and no change |
| `Progress.SameShapeKeepsInvariants` | database/migrations/2026_01_10_062514_create_organizations_table.php:17 | updates that keep keys, domains and batch ids keep the unique-domain and fresh-counter invariants |
| `Progress.JobStepShape` | app/Jobs/ProcessOrganizationOnboarding.php:176-204 | handle and failed never add or remove rows, change a domain or batch id, or touch the counters |
| `Progress.IngestStore` | app/Services/BulkOnboardService.php:62-87 | an ingestion leaves the store as the service call does; it keeps the invariants and every existing row, and a fault before the commit leaves the store unchanged |
| `Progress.Step` | app/Jobs/ProcessOrganizationOnboarding.php:72-143 | every event keeps the store invariants; queue events keep the table shape |
| `Progress.Run` | app/Jobs/ProcessOrganizationOnboarding.php:72-143 | the invariants hold after any trace of events |
| `Progress.JobRunShape` | app/Jobs/ProcessOrganizationOnboarding.php:181-203 | a trace of queue events never changes the table shape |
| `Progress.StepKeepsNonPending` | app/Jobs/ProcessOrganizationOnboarding.php:91-143 | no event writes pending over another status or deletes a row |
| `Progress.NeverPendingAgain` | app/Jobs/ProcessOrganizationOnboarding.php:91-143 | over any trace, a row that has left pending never returns to it |
| `Progress.HandleTwiceIsNoOp` | app/Jobs/ProcessOrganizationOnboarding.php:79-88 | a second delivery for a row changes nothing and raises nothing, whatever either outcome |
| `Progress.PendingAfterUpdate` | app/Jobs/ProcessOrganizationOnboarding.php:191-193 | a row that leaves pending drops out of its batch's pending set and nothing else does |
| `Progress.HandleKeepsBound` | app/Jobs/ProcessOrganizationOnboarding.php:91-131 | a delivery keeps count + pending rows within the total for every batch |
| `Progress.GiveUpKeepsBound` | app/Jobs/ProcessOrganizationOnboarding.php:137-143 | a give-up callback keeps count + pending rows within the total for every batch |
| `Progress.IngestKeepsBound` | app/Services/BulkOnboardService.php:24-54 | an ingestion leaves every existing batch row and its set of pending rows unchanged, so its bound still holds |
| `Progress.IngestBoundsNewBatch` | app/Services/BulkOnboardService.php:24-54 | the new batch starts with count 0 and total = input length, and has at most that many pending rows |
| `Progress.StepKeepsBatchBound` | app/Jobs/ProcessOrganizationOnboarding.php:199-204 | every event keeps every batch within its bound |
| `Progress.RunKeepsBatchBound` | app/Jobs/ProcessOrganizationOnboarding.php:199-204 | from a store within the bound, every trace stays within it |
| `Progress.ReachableWithinBound` | app/Jobs/ProcessOrganizationOnboarding.php:199-204 | from the empty database, every batch's processed count stays at most its total |
| `Progress.CompletedAreDone` | app/Jobs/ProcessOrganizationOnboarding.php:79-108 | a row completed by a delivery existed from the start and is no longer pending |
| `Progress.JobStepCount` | app/Jobs/ProcessOrganizationOnboarding.php:91-108 | a queue event raises a batch's count by one exactly when it completes a pending row of that batch |
| `Progress.CompletedInSnoc` | app/Jobs/ProcessOrganizationOnboarding.php:91-108 | a batch's completions grow by the row the last event completes, if that row is in the batch |
| `Progress.CompletedInStep` | app/Jobs/ProcessOrganizationOnboarding.php:79-108 | the last event adds one completion exactly when it raises the batch's count |
| `Progress.ProcessedCountsCompletions` | app/Jobs/ProcessOrganizationOnboarding.php:105-108 | over queue events, a batch's count rises by exactly the number of its rows completed by a delivery |
| `Progress.BatchProgressAfterIngest` | app/Services/BulkOnboardService.php:24-28 | after an ingestion and any queue events, the new batch's count equals its completed rows and stays at most its total, the input length |
| `Progress.ProcessedWithinDispatched` | app/Services/BulkOnboardService.php:26 | the new batch's count never exceeds the dispatched tasks, so with a skipped item it never reaches the stored total |
| `Progress.RunKeepsBoundAt` | app/Jobs/ProcessOrganizationOnboarding.php:105-108 | queue events keep one batch within its bound and never change its total |
| `Progress.JobStepKeepsBound` | app/Jobs/ProcessOrganizationOnboarding.php:105-108 | one queue event keeps one batch within its bound and leaves its total alone |

## Left out

- Logging (`Log::info`, `Log::error`) writes no state and is left out. A log call that throws
  is modelled only through its effect: the `Aborted` outcome in the job, and the `AfterCommit`
  fault in the service.
- Queue runtime is left out: backoff delays, the per-attempt timeout, `failOnTimeout`, the
  queue lane and redelivery scheduling. They appear only as constants in `OnboardingJob`.
  The retry loop is modelled as repeated `Deliver` events followed by a `GiveUp` event,
  in any order the queue chooses.
- Concurrency is left out. Each `handle`, `failed` and service call is one atomic step, so
  the model assumes that deliveries of one row never overlap. Nothing in the code enforces
  this. Two deliveries racing between the status check and the `processing` update would
  raise the batch counter twice for one row, which the `Progress` results exclude.
- `created_at`, `updated_at` and wall-clock time are left out. `processed_at` takes an
  abstract time parameter.
- `performOnboarding` is a parameter: the outcome `Completes`, `Throws(message)` or `Aborted`.
  `Aborted` is an attempt that stops before its catch block.
- Exceptions raised by the database inside `handle` are not modelled. An exception from the
  `completed` update or the batch increment would also be caught and mark the row failed.
  `findOrFail` on a missing row is modelled.
- The database transaction is modelled as "return the old store". An exception is modelled
  as a fault parameter naming the step that raises it. A fault at the step after the commit
  keeps the committed store.
- BulkOnboardService.ProcessBulkOnboarding: assumes a queue that takes part in the
  transaction, since it promises that a rolled-back call dispatched nothing. In the code,
  the tasks are pushed (app/Services/BulkOnboardService.php:52-54) before `DB::commit()`. A queue that neither uses
  the same database connection nor dispatches after commit would keep the tasks pushed before
  a later exception.
- Domain uniqueness is exact string equality. The unique index compares domains under the
  column's collation. Under MySQL's default case-insensitive collations, `A.com` and `a.com`
  clash there, but the model stores both.
- Ids come from a gap-free counter that a rollback restores. The "consecutive keys" clauses of
  `OrganizationRepository.InsertAllKeepsExisting`, `OrganizationRepository.InsertAllStoresAccepted`
  and `BulkOnboardService.CommitCount` rest on this. An engine such as InnoDB may skip ids for
  ignored rows and does not give back ids after a rollback.
- The email-format check is a parameter predicate `isEmail`. `config('app.debug')` is a
  boolean parameter.
- Validation messages (`messages()`) are left out. The error bag is modelled as the list of
  failing (item, attribute) pairs, not as message texts.
- The framework's request middleware is left out. Strings reach the validator and the
  service as sent, without trimming or empty-to-null conversion.
- A top-level JSON object payload, as opposed to a list, is not modelled. A non-object item
  is modelled as an item whose attributes are all absent.
- Rows written outside the modelled events are outside the model. The schema has no foreign
  key on `batch_id`, so such a row could name a batch id not yet handed out. The next batch
  created would then count it as one of its own rows. `BulkOnboardService.ProcessBulkOnboarding`
  and `BulkOnboardController.StoreAction` require `BatchRefsBelow`, which holds from the empty
  database under the modelled events (`Progress.Run`).
- The `batches` migration is not part of this model. `processed_organizations` is taken to
  default to 0 when `BatchRepository::createBatch` omits it.
- The Eloquent models, the route file and the test bootstrap are left out. They hold no
  logic of the core.
- Progress.ProcessedCountsCompletions: stated over traces of queue events that follow the
  batch's creation. Ingestions interleaved among them never touch an existing batch (see
  `Progress.IngestKeepsBound`), but the count equality is not proved for mixed traces.

=== FILE: batch_repository.dfy ===
/** `BatchRepository`: creation of a batch and the two updates of its counters. */
module BatchRepository {
  import opened Common
  import opened Schema

  /** A newly created row and the store that now holds it. */
  datatype Created = Created(store: Store, id: BatchId)

  /** `Batch::find` returned null and a method was called on it. */
  datatype RepositoryError = BatchNotFound(id: BatchId)

  /**
   * Inserts a batch with status "pending" and the given total; `processed_organizations`
   * takes its column default 0. Returns the fresh key.
   */
  function CreateBatch(s: Store, totalOrganizations: nat): (r: Created)
    requires Valid(s)
    ensures r.id !in s.batches
    ensures r.store.batches == s.batches[r.id := Batch("pending", totalOrganizations, 0)]
    ensures r.store.orgs == s.orgs && r.store.nextOrgId == s.nextOrgId
    ensures Valid(r.store)
    ensures BatchRefsBelow(s) ==> BatchRefsBelow(r.store)
  {
    var id := s.nextBatchId;
    Created(s.(batches := s.batches[id := Batch("pending", totalOrganizations, 0)], nextBatchId := id + 1), id)
  }

  /** Sets `total_organizations` of batch `b`; fails when there is no such batch. */
  function UpdateTotalOrganizations(s: Store, b: BatchId, count: nat): (r: Result<Store, RepositoryError>)
    ensures b !in s.batches <==> r.Failure?
    ensures r.Failure? ==> r.error == BatchNotFound(b)
    ensures r.Success? ==>
      && r.value.orgs == s.orgs
      && r.value.nextOrgId == s.nextOrgId && r.value.nextBatchId == s.nextBatchId
      && r.value.batches.Keys == s.batches.Keys
      && r.value.batches[b].totalOrganizations == count
      && r.value.batches[b].processedOrganizations == s.batches[b].processedOrganizations
      && r.value.batches[b].status == s.batches[b].status
      && (forall x :: x in s.batches && x != b ==> r.value.batches[x] == s.batches[x])
  {
    if b !in s.batches then Failure(BatchNotFound(b))
    else Success(s.(batches := s.batches[b := s.batches[b].(totalOrganizations := count)]))
  }

  /**
   * Creating a batch and then correcting its total is creating it with the corrected total
   * in the first place; a later read of the batch sees that total.
   */
  lemma CreateThenUpdateTotal(s: Store, initial: nat, count: nat)
    requires Valid(s)
    ensures var c := CreateBatch(s, initial);
      && UpdateTotalOrganizations(c.store, c.id, count) == Success(CreateBatch(s, count).store)
      && c.id in CreateBatch(s, count).store.batches
      && CreateBatch(s, count).store.batches[c.id].totalOrganizations == count
  {
    var c, d := CreateBatch(s, initial), CreateBatch(s, count);
    assert c.store.batches[c.id := c.store.batches[c.id].(totalOrganizations := count)] == d.store.batches;
  }

  /** Adds one to `processed_organizations` of batch `b`; fails when there is no such batch. */
  function IncrementProcessed(s: Store, b: BatchId): (r: Result<Store, RepositoryError>)
    ensures b !in s.batches <==> r.Failure?
    ensures r.Failure? ==> r.error == BatchNotFound(b)
    ensures r.Success? ==>
      && r.value.orgs == s.orgs
      && r.value.nextOrgId == s.nextOrgId && r.value.nextBatchId == s.nextBatchId
      && r.value.batches.Keys == s.batches.Keys
      && r.value.batches[b].processedOrganizations == s.batches[b].processedOrganizations + 1
      && r.value.batches[b].totalOrganizations == s.batches[b].totalOrganizations
      && r.value.batches[b].status == s.batches[b].status
      && (forall x :: x in s.batches && x != b ==> r.value.batches[x] == s.batches[x])
  {
    if b !in s.batches then Failure(BatchNotFound(b))
    else
      var current := s.batches[b];
      Success(s.(batches := s.batches[b := current.(processedOrganizations := current.processedOrganizations + 1)]))
  }
}

=== FILE: bulk_onboard_controller.dfy ===
/**
 * `BulkOnboardController::store` behind its form request: validation, the per-request
 * cap, the service call, and the mapping of its outcome to an HTTP status and JSON body.
 */
module BulkOnboardController {
  import opened Common
  import opened Schema
  import Repo = OrganizationRepository
  import Service = BulkOnboardService
  import Request = BulkOnboardRequest

  /** The largest number of items one request may carry. */
  const MaxOrganizations: nat := 1000

  const ValidationFailed: string := "Validation failed"
  const TooManyOrganizations: string := "Maximum 1000 organizations allowed per request"
  const Initiated: string := "Bulk onboarding initiated successfully"
  const ProcessingFailed: string := "Failed to process bulk onboarding request"
  const HiddenDetails: string := "Internal server error"

  /** The `details` member of an error body, when there is one. */
  datatype Details = NoDetails | Message(text: string) | Errors(violations: seq<Request.Violation>)

  /** The JSON body. */
  datatype Body =
    | Accepted(message: string, batchId: BatchId, totalOrganizations: nat, status: string)
    | Error(error: string, details: Details)

  datatype Response = Response(code: nat, body: Body)

  /** The response, the database afterwards and the organization ids handed to the queue. */
  datatype Reply = Reply(response: Response, store: Store, dispatched: set<OrgId>)

  /**
   * One POST of `payload`. `isEmail` is the email-format check, `fault` the exception the
   * service raises (if any) and `debug` the application's debug flag.
   */
  function StoreAction(s: Store, payload: seq<Request.Item>, isEmail: string -> bool,
                       fault: Option<Service.Fault>, debug: bool): (r: Reply)
    requires Valid(s) && BatchRefsBelow(s)
    ensures r.response.code == 202 || r.response.code == 422 || r.response.code == 500
    // Only an accepted request, or one whose exception came after the commit, touches the
    // database or the queue.
    ensures r.response.code != 202 && !Service.FaultAt(fault, Service.AfterCommit) ==>
      r.store == s && r.dispatched == {}
    ensures r.response.code == 202 <==>
      Request.Validate(payload, isEmail).Success? && |payload| <= MaxOrganizations && fault.None?
    // The form request rejects first, listing the failing attributes.
    ensures Request.Validate(payload, isEmail).Failure? ==>
      r.response == Response(422, Error(ValidationFailed, Errors(Request.Validate(payload, isEmail).error)))
    // Then the cap, before the service is called.
    ensures Request.Validate(payload, isEmail).Success? && |payload| > MaxOrganizations ==>
      r.response == Response(422, Error(TooManyOrganizations, NoDetails))
    // A service exception: 500, its message shown only in debug mode.
    ensures Request.Validate(payload, isEmail).Success? && |payload| <= MaxOrganizations && fault.Some? ==>
      r.response == Response(500, Error(ProcessingFailed, Message(if debug then fault.value.message else HiddenDetails)))
    // An exception after the commit: the 500 above, yet the batch, rows and tasks stay.
    ensures Request.Validate(payload, isEmail).Success? && |payload| <= MaxOrganizations
            && Service.FaultAt(fault, Service.AfterCommit) ==>
      var committed := Service.Commit(s, Request.Validate(payload, isEmail).value);
      r.store == committed.store && r.dispatched == committed.dispatched
    // Success: 202 echoing the new batch and the number of tasks, which never exceeds the items.
    ensures r.response.code == 202 ==>
      && r.response.body == Accepted(Initiated, s.nextBatchId, |r.dispatched|, "processing")
      && |r.dispatched| <= |payload|
      && s.nextBatchId in r.store.batches
      && r.store.batches[s.nextBatchId].totalOrganizations == |payload|
  {
    match Request.Validate(payload, isEmail)
    case Failure(errs) => Reply(Response(422, Error(ValidationFailed, Errors(errs))), s, {})
    case Success(inputs) =>
      if |inputs| > MaxOrganizations then
        Reply(Response(422, Error(TooManyOrganizations, NoDetails)), s, {})
      else
        var outcome := Service.Process(s, inputs, fault);
        match outcome.outcome
        case Success(result) =>
          Service.CommitIsCommitted(s, inputs);
          Reply(Response(202, Accepted(Initiated, result.batchId, result.totalOrganizations, result.status)),
                outcome.store, outcome.dispatched)
        case Failure(message) =>
          Reply(Response(500, Error(ProcessingFailed, Message(if debug then message else HiddenDetails))),
                outcome.store, outcome.dispatched)
  }

  /** An item's domain; every validated item has a string one. */
  function DomainOf(item: Request.Item): (domain: string)
  {
    if item.domain.Str? then item.domain.value else ""
  }

  /** No item's domain is stored already and no two items share one. */
  ghost predicate FreshDistinctDomains(s: Store, payload: seq<Request.Item>)
  {
    && (forall i :: 0 <= i < |payload| ==> DomainOf(payload[i]) !in Domains(s))
    && (forall i, j :: 0 <= i < j < |payload| ==> DomainOf(payload[i]) != DomainOf(payload[j]))
  }

  /** The candidate rows an accepted request builds. */
  function CandidateRows(s: Store, payload: seq<Request.Item>, isEmail: string -> bool): (rows: seq<Repo.Row>)
    requires Request.Validate(payload, isEmail).Success?
  {
    Service.BuildRows(Request.Validate(payload, isEmail).value, s.nextBatchId)
  }

  /** An accepted request dispatches one task per candidate row the insert keeps. */
  lemma AcceptedDispatchCount(s: Store, payload: seq<Request.Item>, isEmail: string -> bool)
    requires Valid(s) && BatchRefsBelow(s)
    requires StoreAction(s, payload, isEmail, None, false).response.code == 202
    ensures Request.Validate(payload, isEmail).Success?
    ensures |StoreAction(s, payload, isEmail, None, false).dispatched|
         == |Repo.Accepted(Domains(s), CandidateRows(s, payload, isEmail))|
  {
    var inputs := Request.Validate(payload, isEmail).value;
    Service.CommitCount(s, inputs);
  }

  /** The candidate rows carry the items' domains, item by item. */
  lemma RowDomainsArePayloadDomains(s: Store, payload: seq<Request.Item>, isEmail: string -> bool)
    requires Request.Validate(payload, isEmail).Success?
    ensures var rows := CandidateRows(s, payload, isEmail);
      |rows| == |payload| && forall i :: 0 <= i < |payload| ==> rows[i].domain == DomainOf(payload[i])
  {
    forall i | 0 <= i < |payload| ensures payload[i].domain.Str? {
      assert Request.ItemValid(payload[i], isEmail);
    }
  }

  /** The insert keeps every candidate row exactly when the items' domains are new and distinct. */
  lemma KeepsAllIffFreshDistinct(s: Store, payload: seq<Request.Item>, isEmail: string -> bool)
    requires Request.Validate(payload, isEmail).Success?
    ensures |Repo.Accepted(Domains(s), CandidateRows(s, payload, isEmail))| == |payload|
        <==> FreshDistinctDomains(s, payload)
  {
    var rows := CandidateRows(s, payload, isEmail);
    RowDomainsArePayloadDomains(s, payload, isEmail);
    Repo.AcceptedAllIff(Domains(s), rows);
  }

  /**
   * An accepted request dispatches one task per item exactly when no item's domain is
   * stored already and no two items share a domain; otherwise some item gets no task.
   */
  lemma AllDispatchedIff(s: Store, payload: seq<Request.Item>, isEmail: string -> bool)
    requires Valid(s) && BatchRefsBelow(s)
    requires StoreAction(s, payload, isEmail, None, false).response.code == 202
    ensures |StoreAction(s, payload, isEmail, None, false).dispatched| == |payload|
        <==> FreshDistinctDomains(s, payload)
  {
    AcceptedDispatchCount(s, payload, isEmail);
    KeepsAllIffFreshDistinct(s, payload, isEmail);
  }

  /** A full request of exactly 1000 new, distinct domains is accepted whole: 1000 tasks. */
  lemma FullRequestAccepted(s: Store, payload: seq<Request.Item>, isEmail: string -> bool)
    requires Valid(s) && BatchRefsBelow(s)
    requires |payload| == MaxOrganizations
    requires forall i :: 0 <= i < |payload| ==> Request.ItemValid(payload[i], isEmail)
    requires FreshDistinctDomains(s, payload)
    ensures var r := StoreAction(s, payload, isEmail, None, false);
      && r.response == Response(202, Accepted(Initiated, s.nextBatchId, 1000, "processing"))
      && |r.dispatched| == 1000
  {
    Request.NoViolationsIffValid(payload, isEmail);
    AllDispatchedIff(s, payload, isEmail);
  }

  /**
   * A 500 does not always mean nothing happened: when the exception comes after the commit,
   * the new batch is stored although the client is told the request failed.
   */
  lemma ServerErrorOverCommittedBatch(s: Store, payload: seq<Request.Item>, isEmail: string -> bool,
                                      message: string, debug: bool)
    requires Valid(s) && BatchRefsBelow(s)
    requires Request.Validate(payload, isEmail).Success? && |payload| <= MaxOrganizations
    ensures var r := StoreAction(s, payload, isEmail, Some(Service.Fault(Service.AfterCommit, message)), debug);
      && r.response.code == 500
      && s.nextBatchId !in s.batches && s.nextBatchId in r.store.batches
      && r.store.batches[s.nextBatchId].totalOrganizations == |payload|
  {
    Service.CommitBatch(s, Request.Validate(payload, isEmail).value);
  }

  /** One item more than the cap is refused with the store untouched, whatever its content. */
  lemma OverCapRefused(s: Store, payload: seq<Request.Item>, isEmail: string -> bool,
                       fault: Option<Service.Fault>, debug: bool)
    requires Valid(s) && BatchRefsBelow(s)
    requires |payload| > MaxOrganizations
    ensures var r := StoreAction(s, payload, isEmail, fault, debug);
      && r.response.code == 422
      && r.store == s && r.dispatched == {}
  {
  }

  /** An empty list is refused by validation, with the store untouched. */
  lemma EmptyRefused(s: Store, isEmail: string -> bool, fault: Option<Service.Fault>, debug: bool)
    requires Valid(s) && BatchRefsBelow(s)
    ensures StoreAction(s, [], isEmail, fault, debug)
         == Reply(Response(422, Error(ValidationFailed, Errors([Request.NoOrganizations]))), s, {})
  {
  }
}

=== FILE: bulk_onboard_request.dfy ===
/**
 * `BulkOnboardRequest`: the validation rules a payload must pass before the controller
 * sees it. The payload is a JSON list of organization objects; each of the three
 * attributes is read as one `Field`.
 */
module BulkOnboardRequest {
  import opened Common
  import Service = BulkOnboardService

  /** The largest accepted string length, in characters (`max:255`). */
  const MaxLength: nat := 255

  /**
   * One attribute of an item as JSON delivers it. A key that is missing, and every
   * attribute of an item that is not an object, is `Absent`; numbers, booleans, arrays
   * and objects are `NonString`.
   */
  datatype Field = Absent | Null | Str(value: string) | NonString

  /** One payload item. */
  datatype Item = Item(name: Field, domain: Field, contactEmail: Field)

  datatype FieldName = Name | Domain | ContactEmail

  /** One entry of the error bag: the empty payload, or item `index`'s attribute `field`. */
  datatype Violation = NoOrganizations | Invalid(index: nat, field: FieldName)

  /** The characters PHP's `trim` strips by default. */
  predicate IsTrimChar(c: char)
  {
    c == ' ' || c == '\t' || c == '\n' || c == '\r' || c as int == 0 || c as int == 0x0B
  }

  /** `trim(s) === ''`, the test `required` applies to strings (and that skips non-implicit rules). */
  function Blank(s: string): (b: bool)
    decreases |s|
  {
    if s == [] then true else IsTrimChar(s[0]) && Blank(s[1..])
  }

  /** A blank string is one made only of trimmable characters. */
  lemma {:induction false} BlankIffAllTrimmable(s: string)
    ensures Blank(s) <==> forall i :: 0 <= i < |s| ==> IsTrimChar(s[i])
    decreases |s|
  {
    if s != [] {
      BlankIffAllTrimmable(s[1..]);
      assert forall i :: 1 <= i < |s| ==> s[i] == s[1..][i - 1];
    }
  }

  /**
   * `required|string|max:255`: `required` rejects an absent or null value and a blank
   * string; `string` rejects every other non-string; `max` bounds the length.
   */
  predicate RequiredString(f: Field)
  {
    f.Str? && !Blank(f.value) && |f.value| <= MaxLength
  }

  /**
   * `nullable|email|max:255`. The rules are not implicit, so an absent attribute, a null
   * one (`nullable`) and a blank string are not checked at all; any other value must be a
   * string that `isEmail` accepts and of at most 255 characters.
   */
  predicate OptionalEmail(f: Field, isEmail: string -> bool)
  {
    match f
    case Absent => true
    case Null => true
    case Str(s) => Blank(s) || (isEmail(s) && |s| <= MaxLength)
    case NonString => false
  }

  predicate FieldValid(item: Item, field: FieldName, isEmail: string -> bool)
  {
    match field
    case Name => RequiredString(item.name)
    case Domain => RequiredString(item.domain)
    case ContactEmail => OptionalEmail(item.contactEmail, isEmail)
  }

  /**
   * The error entries for the wildcard rule on `field`, in item order: the rule
   * `*.field` expands into one attribute per item, in data order.
   */
  function FieldViolations(payload: seq<Item>, field: FieldName, isEmail: string -> bool): (errs: seq<Violation>)
    ensures forall v :: v in errs <==>
      v.Invalid? && v.field == field && v.index < |payload| && !FieldValid(payload[v.index], field, isEmail)
    ensures forall k, l :: 0 <= k < l < |errs| ==> errs[k].Invalid? && errs[l].Invalid? && errs[k].index < errs[l].index
    decreases |payload|
  {
    if payload == [] then []
    else
      var n := |payload| - 1;
      var prior := FieldViolations(payload[..n], field, isEmail);
      assert forall v: Violation :: v.Invalid? && v.index < n ==> payload[..n][v.index] == payload[v.index];
      prior + (if FieldValid(payload[n], field, isEmail) then [] else [Invalid(n, field)])
  }

  /** The item's conversion by the service: the attributes as given, a missing email read as null. */
  function ToInput(item: Item): (input: Service.OrgInput)
    requires item.name.Str? && item.domain.Str?
    ensures input.name == item.name.value && input.domain == item.domain.value
    ensures input.contactEmail.Some? <==> item.contactEmail.Str?
    ensures item.contactEmail.Str? ==> input.contactEmail == Some(item.contactEmail.value)
  {
    Service.OrgInput(item.name.value, item.domain.value,
                     if item.contactEmail.Str? then Some(item.contactEmail.value) else None)
  }

  predicate ItemValid(item: Item, isEmail: string -> bool)
  {
    FieldValid(item, Name, isEmail) && FieldValid(item, Domain, isEmail) && FieldValid(item, ContactEmail, isEmail)
  }

  /** Every error entry of a non-empty payload, grouped by rule in the order the rules are declared. */
  function AllViolations(payload: seq<Item>, isEmail: string -> bool): (errs: seq<Violation>)
    ensures forall v :: v in errs <==>
      v.Invalid? && v.index < |payload| && !FieldValid(payload[v.index], v.field, isEmail)
  {
    FieldViolations(payload, Name, isEmail)
    + FieldViolations(payload, Domain, isEmail)
    + FieldViolations(payload, ContactEmail, isEmail)
  }

  /** No error entry exactly when every item passes every rule. */
  lemma NoViolationsIffValid(payload: seq<Item>, isEmail: string -> bool)
    ensures AllViolations(payload, isEmail) == [] <==>
      forall i :: 0 <= i < |payload| ==> ItemValid(payload[i], isEmail)
  {
    var errs := AllViolations(payload, isEmail);
    if errs == [] {
      forall i | 0 <= i < |payload| ensures ItemValid(payload[i], isEmail) {
        assert Invalid(i, Name) !in errs && Invalid(i, Domain) !in errs && Invalid(i, ContactEmail) !in errs;
      }
    } else {
      var v := errs[0];
      assert v in errs;
      assert !ItemValid(payload[v.index], isEmail);
    }
  }

  /**
   * The validator: an empty payload fails with the single `NoOrganizations` entry; any
   * other payload passes iff every item passes every rule, and then yields the service's
   * input, item by item. A failing payload reports every failing attribute, grouped by
   * rule and in item order.
   */
  function Validate(payload: seq<Item>, isEmail: string -> bool): (r: Result<seq<Service.OrgInput>, seq<Violation>>)
    ensures payload == [] ==> r == Failure([NoOrganizations])
    ensures r.Success? <==> payload != [] && forall i :: 0 <= i < |payload| ==> ItemValid(payload[i], isEmail)
    ensures r.Success? ==>
      && |r.value| == |payload|
      && (forall i :: 0 <= i < |payload| ==> r.value[i] == ToInput(payload[i]))
    ensures r.Failure? && payload != [] ==> forall v :: v in r.error <==>
      v.Invalid? && v.index < |payload| && !FieldValid(payload[v.index], v.field, isEmail)
  {
    if payload == [] then Failure([NoOrganizations])
    else
      var errs := AllViolations(payload, isEmail);
      NoViolationsIffValid(payload, isEmail);
      if errs == [] then
        Success(seq(|payload|, i requires 0 <= i < |payload| => ToInput(payload[i])))
      else
        Failure(errs)
  }
}

=== FILE: bulk_onboard_service.dfy ===
/**
 * `BulkOnboardService::processBulkOnboarding`: in one transaction, create a batch,
 * insert-or-ignore the candidate rows, and dispatch one task per row of the new batch.
 */
module BulkOnboardService {
  import opened Common
  import opened Schema
  import Repo = OrganizationRepository

  /** One payload item as the service reads it; a missing or null email is `None`. */
  datatype OrgInput = OrgInput(name: string, domain: string, contactEmail: Option<string>)

  /** The service's return value. */
  datatype BulkResult = BulkResult(batchId: BatchId, totalOrganizations: nat, status: string)

  /**
   * The steps inside the `try` at which an exception can be raised: three before
   * `DB::commit()`, and the log call after it.
   */
  datatype Step = CreatingBatch | Inserting | Dispatching | AfterCommit

  /** An exception raised at `step` with `message`. */
  datatype Fault = Fault(step: Step, message: string)

  /**
   * The database afterwards, the organization ids handed to the queue, and the returned
   * value or the re-thrown exception message.
   */
  datatype Ingestion = Ingestion(store: Store, dispatched: set<OrgId>, outcome: Result<BulkResult, string>)

  /** The candidate row built for one item: status pending, owned by batch `b`. */
  function BuildRow(input: OrgInput, b: BatchId): (row: Repo.Row)
    ensures row.name == input.name && row.domain == input.domain && row.contactEmail == input.contactEmail
    ensures row.status == Some(Pending) && row.batchId == Some(b)
  {
    Repo.Row(input.name, input.domain, input.contactEmail, Some(Pending), Some(b))
  }

  function BuildRows(inputs: seq<OrgInput>, b: BatchId): (rows: seq<Repo.Row>)
    ensures |rows| == |inputs|
    ensures forall i :: 0 <= i < |inputs| ==> rows[i] == BuildRow(inputs[i], b)
  {
    seq(|inputs|, i requires 0 <= i < |inputs| => BuildRow(inputs[i], b))
  }

  /** The input items whose domain the insert keeps, in input order. */
  function AcceptedInputs(s: Store, inputs: seq<OrgInput>, b: BatchId): (rows: seq<Repo.Row>)
  {
    Repo.Accepted(Domains(s), BuildRows(inputs, b))
  }

  /** The transaction is rolled back: the store as it was, no task, the exception re-thrown. */
  function RolledBack(s: Store, message: string): (r: Ingestion)
  {
    Ingestion(s, {}, Failure(message))
  }

  predicate FaultAt(fault: Option<Fault>, step: Step)
  {
    fault.Some? && fault.value.step == step
  }

  /** An exception raised before `DB::commit()`, which the rollback undoes. */
  predicate RollsBack(fault: Option<Fault>)
  {
    fault.Some? && fault.value.step != AfterCommit
  }

  /**
   * An exception after `DB::commit()`: the rollback has nothing to undo, so the batch, the
   * rows and the queued tasks stay, yet the exception is re-thrown.
   */
  function FailedAfterCommit(committed: Ingestion, message: string): (r: Ingestion)
    ensures r.store == committed.store && r.dispatched == committed.dispatched
    ensures r.outcome == Failure(message)
  {
    committed.(outcome := Failure(message))
  }

  /** |A - B| = |A| - |B| when B is inside A. */
  lemma CardDifference<T>(a: set<T>, b: set<T>)
    requires b <= a
    ensures |a - b| == |a| - |b|
  {
    assert a == (a - b) + b;
  }

  /**
   * What a committed call promises, with `b` the fresh batch key: the batch row, the
   * untouched old rows, and the dispatched ids being exactly the rows this call added.
   */
  ghost predicate Committed(s: Store, inputs: seq<OrgInput>, r: Ingestion)
  {
    CommittedBatch(s, inputs, r) && CommittedRows(s, inputs, r) && CommittedCount(s, inputs, r)
  }

  /** A fresh pending batch whose total is the INPUT length; old rows untouched; invariants kept. */
  ghost predicate CommittedBatch(s: Store, inputs: seq<OrgInput>, r: Ingestion)
  {
    var b := s.nextBatchId;
    && b !in s.batches
    && r.store.batches == s.batches[b := Batch("pending", |inputs|, 0)]
    && (forall id :: id in s.orgs ==> id in r.store.orgs && r.store.orgs[id] == s.orgs[id])
    && Valid(r.store) && BatchRefsBelow(r.store)
  }

  /**
   * The dispatched ids are exactly the rows this call added, each a pending row of the new
   * batch built from one input item.
   */
  ghost predicate CommittedRows(s: Store, inputs: seq<OrgInput>, r: Ingestion)
  {
    var b := s.nextBatchId;
    && r.dispatched == r.store.orgs.Keys - s.orgs.Keys
    && (forall id :: id in r.dispatched ==>
          && r.store.orgs[id].status == Pending
          && r.store.orgs[id].batchId == Some(b)
          && exists i :: 0 <= i < |inputs| && r.store.orgs[id] == Repo.ToOrganization(BuildRow(inputs[i], b)))
  }

  /**
   * The added rows are the items with a new domain, first occurrence wins, in input order
   * under consecutive ids; the reply counts the dispatched tasks, which may be fewer than
   * the input items.
   */
  ghost predicate CommittedCount(s: Store, inputs: seq<OrgInput>, r: Ingestion)
  {
    var b := s.nextBatchId;
    && |r.dispatched| == |AcceptedInputs(s, inputs, b)|
    && Repo.StoredFrom(r.store.orgs, s.nextOrgId, Repo.ToOrganizations(AcceptedInputs(s, inputs, b)))
    && r.outcome == Success(BulkResult(b, |r.dispatched|, "processing"))
    && |r.dispatched| <= |inputs|
  }

  /** The rows of the fresh batch after the insert are exactly the rows the insert added. */
  lemma NewBatchRowsAreAdded(s: Store, s1: Store, b: BatchId, rows: seq<Repo.Row>)
    requires Valid(s) && BatchRefsBelow(s)
    requires Valid(s1) && s1.orgs == s.orgs && s1.nextOrgId == s.nextOrgId && b == s.nextBatchId
    requires forall i :: 0 <= i < |rows| ==> rows[i].batchId == Some(b)
    ensures var s2 := Repo.InsertAll(s1, rows).store;
      Repo.GetOrganizationsByBatch(s2, b).Keys == s2.orgs.Keys - s.orgs.Keys
  {
    var s2 := Repo.InsertAll(s1, rows).store;
    Repo.InsertAllKeepsExisting(s1, rows);
    Repo.InsertAllAddsOnlyInputRows(s1, rows);
    forall id | id in s2.orgs.Keys - s.orgs.Keys ensures s2.orgs[id].batchId == Some(b) {
      var i :| 0 <= i < |rows| && s2.orgs[id] == Repo.ToOrganization(rows[i]);
    }
  }

  /** Every row the insert added is a pending row of batch `b` built from an input item. */
  lemma AddedRowsComeFromInputs(s1: Store, inputs: seq<OrgInput>, b: BatchId)
    requires Valid(s1)
    ensures var s2 := Repo.InsertAll(s1, BuildRows(inputs, b)).store;
      forall id :: id in s2.orgs && id !in s1.orgs ==>
        && s2.orgs[id].status == Pending
        && s2.orgs[id].batchId == Some(b)
        && exists i :: 0 <= i < |inputs| && s2.orgs[id] == Repo.ToOrganization(BuildRow(inputs[i], b))
  {
    var rows := BuildRows(inputs, b);
    var s2 := Repo.InsertAll(s1, rows).store;
    Repo.InsertAllAddsOnlyInputRows(s1, rows);
    forall id | id in s2.orgs && id !in s1.orgs
      ensures exists i :: 0 <= i < |inputs| && s2.orgs[id] == Repo.ToOrganization(BuildRow(inputs[i], b))
    {
      var i :| 0 <= i < |rows| && s2.orgs[id] == Repo.ToOrganization(rows[i]);
    }
  }

  /** The insert into the fresh batch keeps every row's batch reference below the counter. */
  lemma InsertKeepsBatchRefs(s1: Store, inputs: seq<OrgInput>, b: BatchId)
    requires Valid(s1) && BatchRefsBelow(s1) && b < s1.nextBatchId
    ensures BatchRefsBelow(Repo.InsertAll(s1, BuildRows(inputs, b)).store)
  {
    AddedRowsComeFromInputs(s1, inputs, b);
    Repo.InsertAllKeepsExisting(s1, BuildRows(inputs, b));
  }

  /**
   * The outcome of a call as one value: rolled back on a fault before the commit,
   * committed but failed on a fault after it, else committed.
   */
  function Process(s: Store, inputs: seq<OrgInput>, fault: Option<Fault>): (r: Ingestion)
    requires Valid(s)
  {
    if RollsBack(fault) then RolledBack(s, fault.value.message)
    else if fault.Some? then FailedAfterCommit(Commit(s, inputs), fault.value.message)
    else Commit(s, inputs)
  }

  /** The committed outcome of a call that raises nothing, as one value. */
  function Commit(s: Store, inputs: seq<OrgInput>): (r: Ingestion)
    requires Valid(s)
  {
    var (s1, b) := Repo.CreateBatch(s, Batch("pending", |inputs|, 0));
    var s2 := Repo.InsertAll(s1, BuildRows(inputs, b)).store;
    var ids := Repo.GetOrganizationsByBatch(s2, b).Keys;
    Ingestion(s2, ids, Success(BulkResult(b, |ids|, "processing")))
  }

  lemma CommitBatch(s: Store, inputs: seq<OrgInput>)
    requires Valid(s) && BatchRefsBelow(s)
    ensures CommittedBatch(s, inputs, Commit(s, inputs))
  {
    var (s1, b) := Repo.CreateBatch(s, Batch("pending", |inputs|, 0));
    var rows := BuildRows(inputs, b);
    Repo.InsertAllValid(s1, rows);
    Repo.InsertAllKeepsExisting(s1, rows);
    InsertKeepsBatchRefs(s1, inputs, b);
  }

  lemma CommitRows(s: Store, inputs: seq<OrgInput>)
    requires Valid(s) && BatchRefsBelow(s)
    ensures CommittedRows(s, inputs, Commit(s, inputs))
  {
    var (s1, b) := Repo.CreateBatch(s, Batch("pending", |inputs|, 0));
    var rows := BuildRows(inputs, b);
    NewBatchRowsAreAdded(s, s1, b, rows);
    AddedRowsComeFromInputs(s1, inputs, b);
  }

  lemma CommitCount(s: Store, inputs: seq<OrgInput>)
    requires Valid(s) && BatchRefsBelow(s)
    ensures CommittedCount(s, inputs, Commit(s, inputs))
  {
    var (s1, b) := Repo.CreateBatch(s, Batch("pending", |inputs|, 0));
    var rows := BuildRows(inputs, b);
    var s2 := Repo.InsertAll(s1, rows).store;
    Repo.InsertAllKeepsExisting(s1, rows);
    Repo.InsertAllStoresAccepted(s1, rows);
    NewBatchRowsAreAdded(s, s1, b, rows);
    CardDifference(s2.orgs.Keys, s.orgs.Keys);
  }

  /** A call that raises nothing keeps every promise of `Committed`. */
  lemma CommitIsCommitted(s: Store, inputs: seq<OrgInput>)
    requires Valid(s) && BatchRefsBelow(s)
    ensures Committed(s, inputs, Commit(s, inputs))
  {
    CommitBatch(s, inputs);
    CommitRows(s, inputs);
    CommitCount(s, inputs);
  }

  /**
   * One call of the service against store `s`. `fault`, when present, is the exception
   * raised inside the transaction and the step that raises it.
   */
  method ProcessBulkOnboarding(s: Store, inputs: seq<OrgInput>, fault: Option<Fault>) returns (r: Ingestion)
    requires Valid(s) && BatchRefsBelow(s)
    // An exception before the commit: everything is rolled back and the exception propagates.
    ensures RollsBack(fault) ==> r == Ingestion(s, {}, Failure(fault.value.message))
    // An exception after the commit: the committed store and tasks stay, the exception propagates.
    ensures FaultAt(fault, AfterCommit) ==>
      && r.store == Commit(s, inputs).store && r.dispatched == Commit(s, inputs).dispatched
      && r.outcome == Failure(fault.value.message)
    // No exception: the committed outcome, whose promises `CommitIsCommitted` states.
    ensures fault.None? ==> r == Commit(s, inputs)
  {
    var created := Repo.CreateBatch(s, Batch("pending", |inputs|, 0));
    var s1, b := created.0, created.1;
    if FaultAt(fault, CreatingBatch) {
      return RolledBack(s, fault.value.message);
    }
    var rows := BuildRows(inputs, b);
    var s2, insertedCount := Repo.BulkInsertOrganizations(s1, rows);
    if FaultAt(fault, Inserting) {
      return RolledBack(s, fault.value.message);
    }
    var ids := Repo.GetOrganizationsByBatch(s2, b).Keys;
    if FaultAt(fault, Dispatching) {
      return RolledBack(s, fault.value.message);
    }
    r := Ingestion(s2, ids, Success(BulkResult(b, |ids|, "processing")));
    assert r == Commit(s, inputs);
    if FaultAt(fault, AfterCommit) {
      r := FailedAfterCommit(r, fault.value.message);
    }
  }
}

=== FILE: common.dfy ===
/** Option/Result wrappers and the one piece of PHP semantics the model leans on. */
module Common {

  /** A nullable value: `None` is SQL NULL / PHP null. */
  datatype Option<+T> = None | Some(value: T) {

    /** The wrapped value, or `default` when there is none (PHP's `??`). */
    function GetOr(default: T): T
    {
      match this
      case Some(v) => v
      case None => default
    }
  }

  /** A computation that either returns a value or raises an error. */
  datatype Result<+T, +E> = Success(value: T) | Failure(error: E)

  /** PHP truthiness of a string: "" and "0" are falsy, every other string is truthy. */
  predicate Truthy(s: string)
  {
    s != "" && s != "0"
  }
}

=== FILE: decimal.dfy ===
/** Decimal rendering of non-negative integers, as PHP string interpolation prints them. */
module Decimal {

  predicate IsDigit(c: char)
  {
    '0' <= c <= '9'
  }

  predicate IsDigits(s: string)
  {
    forall i :: 0 <= i < |s| ==> IsDigit(s[i])
  }

  function DigitChar(d: nat): (c: char)
    requires d < 10
    ensures IsDigit(c)
    ensures c as int - '0' as int == d
  {
    ('0' as int + d) as char
  }

  function DigitValue(c: char): (d: nat)
    requires IsDigit(c)
    ensures d < 10
  {
    c as int - '0' as int
  }

  /** The shortest decimal spelling of `n` (no sign, no leading zeros). */
  function NatToString(n: nat): (s: string)
    ensures 0 < |s|
    ensures IsDigits(s)
    ensures |s| > 1 ==> s[0] != '0'
  {
    if n < 10 then [DigitChar(n)] else NatToString(n / 10) + [DigitChar(n % 10)]
  }

  /** Reads a string of digits back as a number (the inverse of NatToString). */
  function ParseDigits(s: string): (n: nat)
    requires IsDigits(s)
  {
    if s == [] then 0 else ParseDigits(s[..|s| - 1]) * 10 + DigitValue(s[|s| - 1])
  }

  lemma {:induction false} ParseNatToString(n: nat)
    ensures ParseDigits(NatToString(n)) == n
  {
    if n >= 10 {
      var s := NatToString(n);
      assert s[..|s| - 1] == NatToString(n / 10);
      ParseNatToString(n / 10);
    }
  }

  /** Distinct numbers are spelled differently. */
  lemma NatToStringInjective(a: nat, b: nat)
    ensures NatToString(a) == NatToString(b) ==> a == b
  {
    ParseNatToString(a);
    ParseNatToString(b);
  }
}

=== FILE: onboarding_job.dfy ===
/**
 * `ProcessOrganizationOnboarding`: the per-organization worker. `Handle` is one
 * delivery of the task; `Failed` is the handler run once the retries are exhausted.
 * Both run as one atomic step against the store.
 */
module OnboardingJob {
  import opened Common
  import opened Schema
  import Decimal
  import BatchRepository

  /** Attempts before the task is given up. */
  const Tries: nat := 3
  /** Seconds to wait before the second, third and later attempts. */
  const Backoff: seq<nat> := [10, 30, 60]
  /** Seconds one attempt may run; a timeout counts as a failed attempt. */
  const TimeoutSeconds: nat := 300
  const FailOnTimeout: bool := true
  /** The queue lane the tasks are pushed to. */
  const QueueName: string := "organization-onboarding"
  const UniqueIdPrefix: string := "org_onboarding_"

  /**
   * How an attempt went after the row was set to `processing`: the onboarding action
   * returned normally, or threw an `Exception` with a message, or the attempt stopped
   * before the catch block ran. The last covers an attempt killed by its timeout or a
   * worker crash, an exception from the log call that sits between the `processing`
   * write and the `try`, and a `Throwable` that is not an `Exception`.
   */
  datatype ActionOutcome = Completes | Throws(message: string) | Aborted

  /** Why a delivery ended in an exception. */
  datatype JobError =
    | ModelNotFound(id: OrgId)    // `findOrFail` found no row
    | ActionFailed(message: string)  // the action's exception, re-thrown for a retry
    | Interrupted                    // the attempt stopped before the catch block ran

  /** The store after one delivery, and the exception it ended with, if any. */
  datatype HandleResult = HandleResult(store: Store, error: Option<JobError>)

  /**
   * The job's `uniqueId` for organization `id`. The queue does not use it to drop duplicates,
   * since the class is not `ShouldBeUnique`.
   */
  function UniqueId(id: OrgId): (key: string)
    ensures |UniqueIdPrefix| < |key| && key[..|UniqueIdPrefix|] == UniqueIdPrefix
    ensures Decimal.IsDigits(key[|UniqueIdPrefix|..])
    ensures Decimal.ParseDigits(key[|UniqueIdPrefix|..]) == id
    // Interpolation prints no leading zeros: the digits are the canonical ones.
    ensures |key| > |UniqueIdPrefix| + 1 ==> key[|UniqueIdPrefix|] != '0'
  {
    var key := UniqueIdPrefix + Decimal.NatToString(id);
    assert key[|UniqueIdPrefix|..] == Decimal.NatToString(id);
    Decimal.ParseNatToString(id);
    key
  }

  /** Different organizations get different `uniqueId` values. */
  lemma UniqueIdInjective(a: OrgId, b: OrgId)
    ensures UniqueId(a) == UniqueId(b) ==> a == b
  {
    if UniqueId(a) == UniqueId(b) {
      assert UniqueId(a)[|UniqueIdPrefix|..] == Decimal.NatToString(a);
      assert UniqueId(b)[|UniqueIdPrefix|..] == Decimal.NatToString(b);
      Decimal.NatToStringInjective(a, b);
    }
  }

  /**
   * `updateOrganizationStatus`: an UPDATE of the row with key `id` that always writes
   * `status`, writes `failed_reason` only when it is a truthy string, and `processed_at`
   * only when given. No row with that key: nothing is updated.
   */
  function UpdateOrganizationStatus(s: Store, id: OrgId, status: Status, failedReason: Option<string>,
                                    processedAt: Option<Time>): (r: Store)
    ensures r.orgs.Keys == s.orgs.Keys
    ensures r.batches == s.batches && r.nextOrgId == s.nextOrgId && r.nextBatchId == s.nextBatchId
    ensures forall x :: x in s.orgs && x != id ==> r.orgs[x] == s.orgs[x]
    ensures id in s.orgs ==>
      var o, o' := s.orgs[id], r.orgs[id];
      && o'.status == status
      && o'.name == o.name && o'.domain == o.domain && o'.contactEmail == o.contactEmail
      && o'.batchId == o.batchId
      && (if failedReason.Some? && Truthy(failedReason.value) then o'.failedReason == failedReason
          else o'.failedReason == o.failedReason)
      && (if processedAt.Some? then o'.processedAt == processedAt else o'.processedAt == o.processedAt)
    ensures id !in s.orgs ==> r == s
  {
    if id !in s.orgs then s
    else
      var o := s.orgs[id].(status := status);
      var o := if failedReason.Some? && Truthy(failedReason.value) then o.(failedReason := failedReason) else o;
      var o := if processedAt.Some? then o.(processedAt := processedAt) else o;
      s.(orgs := s.orgs[id := o])
  }

  /**
   * `updateBatchProgress`: an atomic `processed_organizations + 1` on the batch row the
   * organization points at; a null or dangling batch id matches no row.
   */
  function UpdateBatchProgress(s: Store, batchId: Option<BatchId>): (r: Store)
    ensures r.orgs == s.orgs && r.nextOrgId == s.nextOrgId && r.nextBatchId == s.nextBatchId
    ensures r.batches.Keys == s.batches.Keys
    ensures forall b :: b in s.batches && Some(b) != batchId ==> r.batches[b] == s.batches[b]
    ensures batchId.Some? && batchId.value in s.batches ==>
      var old', new' := s.batches[batchId.value], r.batches[batchId.value];
      new' == old'.(processedOrganizations := old'.processedOrganizations + 1)
  {
    match batchId
    case Some(b) =>
      if b in s.batches then
        var batch := s.batches[b];
        s.(batches := s.batches[b := batch.(processedOrganizations := batch.processedOrganizations + 1)])
      else s
    case None => s
  }

  /** On an existing batch, the worker's increment is the repository's `incrementProcessed`. */
  lemma UpdateBatchProgressIsIncrementProcessed(s: Store, b: BatchId)
    requires b in s.batches
    ensures BatchRepository.IncrementProcessed(s, b) == Success(UpdateBatchProgress(s, Some(b)))
  {
  }

  /**
   * `handle`: one delivery of the task for organization `id`, with `action` the outcome
   * of the onboarding work and `now` the clock reading.
   */
  function Handle(s: Store, id: OrgId, action: ActionOutcome, now: Time): (r: HandleResult)
    // No such row: `findOrFail` throws before anything is written.
    ensures id !in s.orgs ==> r == HandleResult(s, Some(ModelNotFound(id)))
    // Not pending (processing, completed or failed): a no-op.
    ensures id in s.orgs && s.orgs[id].status != Pending ==> r == HandleResult(s, None)
    // Pending, in every case: no other row, no key counter and no other batch changes.
    ensures id in s.orgs && s.orgs[id].status == Pending ==>
      && r.store.orgs.Keys == s.orgs.Keys
      && (forall x :: x in s.orgs && x != id ==> r.store.orgs[x] == s.orgs[x])
      && r.store.nextOrgId == s.nextOrgId && r.store.nextBatchId == s.nextBatchId
      && r.store.batches.Keys == s.batches.Keys
      && (forall b :: b in s.batches && Some(b) != s.orgs[id].batchId ==> r.store.batches[b] == s.batches[b])
      && r.store.orgs[id].name == s.orgs[id].name
      && r.store.orgs[id].domain == s.orgs[id].domain
      && r.store.orgs[id].contactEmail == s.orgs[id].contactEmail
      && r.store.orgs[id].batchId == s.orgs[id].batchId
    // Pending and the action succeeds: completed, stamped, a prior reason kept, batch + 1.
    ensures id in s.orgs && s.orgs[id].status == Pending && action.Completes? ==>
      && r.error.None?
      && r.store.orgs[id].status == Completed
      && r.store.orgs[id].processedAt == Some(now)
      && r.store.orgs[id].failedReason == s.orgs[id].failedReason
      && (var b := s.orgs[id].batchId;
          b.Some? && b.value in s.batches ==>
            r.store.batches[b.value] == s.batches[b.value].(processedOrganizations := s.batches[b.value].processedOrganizations + 1))
    // Pending and the action throws: failed, a truthy message recorded, batch untouched, re-thrown.
    ensures id in s.orgs && s.orgs[id].status == Pending && action.Throws? ==>
      && r.error == Some(ActionFailed(action.message))
      && r.store.orgs[id].status == Failed
      && r.store.orgs[id].failedReason == (if Truthy(action.message) then Some(action.message) else s.orgs[id].failedReason)
      && r.store.orgs[id].processedAt == s.orgs[id].processedAt
      && r.store.batches == s.batches
    // Pending and the attempt stops early: the row is left in `processing`, nothing else moves.
    ensures id in s.orgs && s.orgs[id].status == Pending && action.Aborted? ==>
      && r.error == Some(Interrupted)
      && r.store.orgs[id] == s.orgs[id].(status := Processing)
      && r.store.batches == s.batches
  {
    if id !in s.orgs then HandleResult(s, Some(ModelNotFound(id)))
    else
      var org := s.orgs[id];
      if org.status != Pending then HandleResult(s, None)
      else
        var started := UpdateOrganizationStatus(s, id, Processing, None, None);
        match action
        case Completes =>
          var done := UpdateOrganizationStatus(started, id, Completed, None, Some(now));
          HandleResult(UpdateBatchProgress(done, org.batchId), None)
        case Throws(message) =>
          HandleResult(UpdateOrganizationStatus(started, id, Failed, Some(message), None), Some(ActionFailed(message)))
        case Aborted =>
          HandleResult(started, Some(Interrupted))
  }

  /**
   * A delivery whose action throws leaves the row `failed`, so the queue's next attempt
   * finds it not pending and returns normally without running the action again: the
   * re-thrown exception does not lead to a second try of the onboarding work.
   */
  lemma RetryAfterThrowSkips(s: Store, id: OrgId, message: string, t1: Time, retry: ActionOutcome, t2: Time)
    requires id in s.orgs && s.orgs[id].status == Pending
    ensures var first := Handle(s, id, Throws(message), t1);
      && first.error == Some(ActionFailed(message))
      && first.store.orgs[id].status == Failed
      && Handle(first.store, id, retry, t2) == HandleResult(first.store, None)
  {
  }

  /**
   * An attempt that stops before the catch block strands the row in `processing`: every
   * later attempt skips it and returns normally, so it is never completed or counted, and
   * only the give-up handler moves it on, to `failed`.
   */
  lemma AbortedStrandsRow(s: Store, id: OrgId, t1: Time, retry: ActionOutcome, t2: Time, message: string)
    requires id in s.orgs && s.orgs[id].status == Pending
    ensures var first := Handle(s, id, Aborted, t1);
      && first.error == Some(Interrupted)
      && first.store.orgs[id].status == Processing
      && Handle(first.store, id, retry, t2) == HandleResult(first.store, None)
      && FailedHandler(first.store, id, message).orgs[id].status == Failed
  {
  }

  /** The reason the give-up handler records: the attempt count, then the last message. */
  function PermanentFailureReason(message: string): (reason: string)
    ensures reason == "Job failed after 3 attempts: " + message
    ensures Truthy(reason)
  {
    "Job failed after " + Decimal.NatToString(Tries) + " attempts: " + message
  }

  /**
   * `failed`: once the retries are exhausted, the row (whatever its status) is marked
   * failed with the attempt-qualified reason. No batch is touched; no row, no change.
   */
  function FailedHandler(s: Store, id: OrgId, message: string): (r: Store)
    ensures id !in s.orgs ==> r == s
    ensures r.orgs.Keys == s.orgs.Keys
    ensures r.batches == s.batches && r.nextOrgId == s.nextOrgId && r.nextBatchId == s.nextBatchId
    ensures forall x :: x in s.orgs && x != id ==> r.orgs[x] == s.orgs[x]
    ensures id in s.orgs ==>
      && r.orgs[id].status == Failed
      && r.orgs[id].failedReason == Some("Job failed after 3 attempts: " + message)
      && r.orgs[id] == s.orgs[id].(status := Failed, failedReason := Some("Job failed after 3 attempts: " + message))
  {
    UpdateOrganizationStatus(s, id, Failed, Some(PermanentFailureReason(message)), None)
  }
}

=== FILE: organization_repository.dfy ===
/**
 * `OrganizationRepository`: batch creation from explicit fields, the chunked
 * insert-or-ignore of candidate rows, and the by-batch query.
 */
module OrganizationRepository {
  import opened Common
  import opened Schema

  /** Rows per INSERT statement. */
  const ChunkSize: nat := 500

  /** A row handed to the bulk insert; an absent `status` takes the column default. */
  datatype Row = Row(
    name: string,
    domain: string,
    contactEmail: Option<string>,
    status: Option<Status>,
    batchId: Option<BatchId>)

  /** The stored form of a freshly inserted row. */
  function ToOrganization(row: Row): (o: Organization)
    ensures o.name == row.name && o.domain == row.domain && o.contactEmail == row.contactEmail
    ensures o.batchId == row.batchId
    ensures row.status.None? ==> o.status == DefaultStatus
    ensures row.status.Some? ==> o.status == row.status.value
    ensures o.processedAt.None? && o.failedReason.None?
  {
    Organization(row.name, row.domain, row.contactEmail, row.status.GetOr(DefaultStatus), row.batchId, None, None)
  }

  /** A new `batches` row with exactly the given column values, and its fresh key. */
  function CreateBatch(s: Store, data: Batch): (r: (Store, BatchId))
    requires Valid(s)
    ensures r.1 !in s.batches
    ensures r.0.batches == s.batches[r.1 := data]
    ensures r.0.orgs == s.orgs && r.0.nextOrgId == s.nextOrgId
    ensures Valid(r.0)
    ensures BatchRefsBelow(s) ==> BatchRefsBelow(r.0)
  {
    var id := s.nextBatchId;
    (s.(batches := s.batches[id := data], nextBatchId := id + 1), id)
  }

  /** A store after inserting, and how many rows the insert reported. */
  datatype Inserted = Inserted(store: Store, count: nat)

  /** One row of an INSERT IGNORE: skipped when its domain is taken, else stored under the next id. */
  function InsertOne(s: Store, row: Row): (r: Inserted)
  {
    if row.domain in Domains(s) then Inserted(s, 0)
    else Inserted(s.(orgs := s.orgs[s.nextOrgId := ToOrganization(row)], nextOrgId := s.nextOrgId + 1), 1)
  }

  /** A single insert keeps the key counter fresh and the domains unique. */
  lemma InsertOneValid(s: Store, row: Row)
    requires Valid(s)
    ensures Valid(InsertOne(s, row).store)
  {
    var r := InsertOne(s, row);
    if row.domain !in Domains(s) {
      forall i, j ensures !DomainClash(r.store.orgs, i, j) {
        assert !DomainClash(s.orgs, i, j);
        if i == s.nextOrgId && j in s.orgs {
          assert s.orgs[j].domain in Domains(s);
        }
        if j == s.nextOrgId && i in s.orgs {
          assert s.orgs[i].domain in Domains(s);
        }
      }
    }
  }

  /** Inserting a row makes its domain taken and leaves the other domains as they were. */
  lemma InsertOneDomains(s: Store, row: Row)
    requires Valid(s)
    ensures Domains(InsertOne(s, row).store) == Domains(s) + {row.domain}
  {
    var r := InsertOne(s, row);
    if row.domain !in Domains(s) {
      forall d | d in Domains(r.store) ensures d in Domains(s) + {row.domain} {
        var id :| id in r.store.orgs && r.store.orgs[id].domain == d;
        if id != s.nextOrgId {
          assert s.orgs[id].domain == d;
        }
      }
      forall d | d in Domains(s) ensures d in Domains(r.store) {
        var id :| id in s.orgs && s.orgs[id].domain == d;
        assert r.store.orgs[id].domain == d;
      }
      assert r.store.orgs[s.nextOrgId].domain == row.domain;
    }
  }

  /** The domains of a sequence of rows. */
  function RowDomains(rows: seq<Row>): (domains: set<string>)
  {
    set i | 0 <= i < |rows| :: rows[i].domain
  }

  lemma RowDomainsSnoc(rows: seq<Row>)
    requires rows != []
    ensures RowDomains(rows) == RowDomains(rows[..|rows| - 1]) + {rows[|rows| - 1].domain}
  {
    var prefix := rows[..|rows| - 1];
    forall d | d in RowDomains(rows) ensures d in RowDomains(prefix) + {rows[|rows| - 1].domain} {
      var i :| 0 <= i < |rows| && rows[i].domain == d;
      if i < |rows| - 1 {
        assert prefix[i] == rows[i];
      }
    }
    forall d | d in RowDomains(prefix) ensures d in RowDomains(rows) {
      var i :| 0 <= i < |prefix| && prefix[i].domain == d;
      assert rows[i] == prefix[i];
    }
  }

  /**
   * Insert-or-ignore of `rows` in order, as one statement: a row whose domain is already
   * stored, or was stored by an earlier row of the same call, is skipped. The count is
   * the number of rows stored.
   */
  function InsertAll(s: Store, rows: seq<Row>): (r: Inserted)
    ensures r.count <= |rows|
    ensures r.store.nextOrgId == s.nextOrgId + r.count
    ensures r.store.batches == s.batches && r.store.nextBatchId == s.nextBatchId
  {
    if rows == [] then Inserted(s, 0)
    else
      var p := InsertAll(s, rows[..|rows| - 1]);
      var q := InsertOne(p.store, rows[|rows| - 1]);
      Inserted(q.store, p.count + q.count)
  }

  /** The insert keeps the store invariant: fresh counters and unique domains. */
  lemma {:induction false} InsertAllValid(s: Store, rows: seq<Row>)
    requires Valid(s)
    ensures Valid(InsertAll(s, rows).store)
  {
    if rows != [] {
      InsertAllValid(s, rows[..|rows| - 1]);
      InsertOneValid(InsertAll(s, rows[..|rows| - 1]).store, rows[|rows| - 1]);
    }
  }

  /**
   * Rows present before the insert keep their key and every column; the added rows use
   * fresh keys, one per counted row.
   */
  lemma {:induction false} InsertAllKeepsExisting(s: Store, rows: seq<Row>)
    requires Valid(s)
    ensures var r := InsertAll(s, rows);
      && (forall id :: id in s.orgs ==> id in r.store.orgs && r.store.orgs[id] == s.orgs[id])
      && (forall id :: id in r.store.orgs && id !in s.orgs ==> s.nextOrgId <= id < r.store.nextOrgId)
      && |r.store.orgs| == |s.orgs| + r.count
  {
    if rows != [] {
      InsertAllKeepsExisting(s, rows[..|rows| - 1]);
    }
  }

  /** The stored domains afterwards are those before plus those of the input rows. */
  lemma {:induction false} InsertAllDomains(s: Store, rows: seq<Row>)
    requires Valid(s)
    ensures Domains(InsertAll(s, rows).store) == Domains(s) + RowDomains(rows)
  {
    if rows == [] {
      assert RowDomains(rows) == {};
    } else {
      InsertAllDomains(s, rows[..|rows| - 1]);
      InsertAllValid(s, rows[..|rows| - 1]);
      InsertOneDomains(InsertAll(s, rows[..|rows| - 1]).store, rows[|rows| - 1]);
      RowDomainsSnoc(rows);
    }
  }

  /** Every row the insert added is the stored form of one of the input rows. */
  lemma {:induction false} InsertAllAddsOnlyInputRows(s: Store, rows: seq<Row>)
    requires Valid(s)
    ensures var r := InsertAll(s, rows);
      forall id :: id in r.store.orgs && id !in s.orgs ==>
        exists i :: 0 <= i < |rows| && r.store.orgs[id] == ToOrganization(rows[i])
  {
    if rows != [] {
      var prefix := rows[..|rows| - 1];
      InsertAllAddsOnlyInputRows(s, prefix);
      var p := InsertAll(s, prefix);
      var r := InsertAll(s, rows);
      forall id | id in r.store.orgs && id !in s.orgs
        ensures exists i :: 0 <= i < |rows| && r.store.orgs[id] == ToOrganization(rows[i])
      {
        if id in p.store.orgs {
          var i :| 0 <= i < |prefix| && p.store.orgs[id] == ToOrganization(prefix[i]);
          assert rows[i] == prefix[i];
        } else {
          assert r.store.orgs[id] == ToOrganization(rows[|rows| - 1]);
        }
      }
    }
  }

  /**
   * Row `i` is one the insert keeps: its domain is neither stored already nor used by an
   * earlier row of the same input.
   */
  predicate FirstNew(taken: set<string>, rows: seq<Row>, i: nat)
    requires i < |rows|
  {
    && rows[i].domain !in taken
    && forall j :: 0 <= j < i ==> rows[j].domain != rows[i].domain
  }

  /** The rows that FirstNew selects against the already `taken` domains, in input order. */
  function Accepted(taken: set<string>, rows: seq<Row>): (kept: seq<Row>)
    ensures |kept| <= |rows|
  {
    if rows == [] then []
    else Accepted(taken, rows[..|rows| - 1]) + (if FirstNew(taken, rows, |rows| - 1) then [rows[|rows| - 1]] else [])
  }

  /** The stored forms of `rows`, in order. */
  function ToOrganizations(rows: seq<Row>): (orgs: seq<Organization>)
    ensures |orgs| == |rows|
    ensures forall i :: 0 <= i < |rows| ==> orgs[i] == ToOrganization(rows[i])
  {
    if rows == [] then [] else ToOrganizations(rows[..|rows| - 1]) + [ToOrganization(rows[|rows| - 1])]
  }

  /** `added` sits in `orgs` under the consecutive keys base, base + 1, ... */
  predicate StoredFrom(orgs: map<OrgId, Organization>, base: nat, added: seq<Organization>)
  {
    forall k :: 0 <= k < |added| ==> base + k in orgs && orgs[base + k] == added[k]
  }

  lemma StoredFromExtend(orgs: map<OrgId, Organization>, base: nat, added: seq<Organization>, o: Organization)
    requires StoredFrom(orgs, base, added)
    ensures StoredFrom(orgs[base + |added| := o], base, added + [o])
  {
    var orgs' := orgs[base + |added| := o];
    var added' := added + [o];
    forall k | 0 <= k < |added'|
      ensures base + k in orgs' && orgs'[base + k] == added'[k]
    {
      if k < |added| {
        assert added'[k] == added[k];
        assert base + k in orgs && orgs[base + k] == added[k];
      } else {
        assert added'[k] == o;
      }
    }
  }

  /** Whether the last row is kept depends only on the domains stored by the fold so far. */
  lemma FirstNewLast(s: Store, rows: seq<Row>)
    requires Valid(s) && rows != []
    ensures FirstNew(Domains(s), rows, |rows| - 1) <==> rows[|rows| - 1].domain !in Domains(InsertAll(s, rows[..|rows| - 1]).store)
  {
    var n := |rows|;
    var prefix := rows[..n - 1];
    var last := rows[n - 1];
    InsertAllDomains(s, prefix);
    if last.domain in RowDomains(prefix) {
      var j :| 0 <= j < |prefix| && prefix[j].domain == last.domain;
      assert rows[j] == prefix[j];
    }
    if exists j :: 0 <= j < n - 1 && rows[j].domain == last.domain {
      var j :| 0 <= j < n - 1 && rows[j].domain == last.domain;
      assert prefix[j] == rows[j];
    }
  }

  /** Storing one more kept row extends the consecutive run of added rows by one. */
  lemma InsertOneExtends(t: Store, base: nat, acc: seq<Row>, row: Row)
    requires t.nextOrgId == base + |acc|
    requires StoredFrom(t.orgs, base, ToOrganizations(acc))
    requires row.domain !in Domains(t)
    ensures InsertOne(t, row).count == 1
    ensures StoredFrom(InsertOne(t, row).store.orgs, base, ToOrganizations(acc + [row]))
  {
    assert ToOrganizations(acc + [row]) == ToOrganizations(acc) + [ToOrganization(row)];
    StoredFromExtend(t.orgs, base, ToOrganizations(acc), ToOrganization(row));
  }

  /**
   * The fold stores exactly the FirstNew rows, in input order, under consecutive fresh
   * keys, and counts exactly those.
   */
  lemma {:induction false} InsertAllStoresAccepted(s: Store, rows: seq<Row>)
    requires Valid(s)
    ensures InsertAll(s, rows).count == |Accepted(Domains(s), rows)|
    ensures StoredFrom(InsertAll(s, rows).store.orgs, s.nextOrgId, ToOrganizations(Accepted(Domains(s), rows)))
  {
    if rows != [] {
      var prefix := rows[..|rows| - 1];
      var last := rows[|rows| - 1];
      var p := InsertAll(s, prefix);
      InsertAllStoresAccepted(s, prefix);
      FirstNewLast(s, rows);
      var q := InsertOne(p.store, last);
      assert InsertAll(s, rows) == Inserted(q.store, p.count + q.count);
      if FirstNew(Domains(s), rows, |rows| - 1) {
        assert Accepted(Domains(s), rows) == Accepted(Domains(s), prefix) + [last];
        InsertOneExtends(p.store, s.nextOrgId, Accepted(Domains(s), prefix), last);
      } else {
        assert Accepted(Domains(s), rows) == Accepted(Domains(s), prefix);
        assert q == Inserted(p.store, 0);
      }
    }
  }

  /** With all input domains new and pairwise distinct, every row is stored. */
  lemma {:induction false} AcceptedAllFresh(taken: set<string>, rows: seq<Row>)
    requires forall i :: 0 <= i < |rows| ==> rows[i].domain !in taken
    requires forall i, j :: 0 <= i < j < |rows| ==> rows[i].domain != rows[j].domain
    ensures Accepted(taken, rows) == rows
  {
    if rows != [] {
      var prefix := rows[..|rows| - 1];
      AcceptedAllFresh(taken, prefix);
      assert FirstNew(taken, rows, |rows| - 1);
      assert prefix + [rows[|rows| - 1]] == rows;
    }
  }

  /** A row that is not FirstNew is skipped, so fewer rows are kept than given. */
  lemma {:induction false} AcceptedDropsRow(taken: set<string>, rows: seq<Row>, j: nat)
    requires j < |rows| && !FirstNew(taken, rows, j)
    ensures |Accepted(taken, rows)| < |rows|
  {
    var prefix := rows[..|rows| - 1];
    if j < |rows| - 1 {
      assert !FirstNew(taken, prefix, j) by {
        assert prefix[j] == rows[j];
        if rows[j].domain !in taken {
          var k :| 0 <= k < j && rows[k].domain == rows[j].domain;
          assert prefix[k] == rows[k];
        }
      }
      AcceptedDropsRow(taken, prefix, j);
    }
  }

  /**
   * Every row is kept exactly when no input domain is stored already and no input domain
   * repeats: one skipped row is enough to make the count fall short.
   */
  lemma AcceptedAllIff(taken: set<string>, rows: seq<Row>)
    ensures |Accepted(taken, rows)| == |rows| <==>
      && (forall i :: 0 <= i < |rows| ==> rows[i].domain !in taken)
      && (forall i, j :: 0 <= i < j < |rows| ==> rows[i].domain != rows[j].domain)
  {
    if exists i :: 0 <= i < |rows| && rows[i].domain in taken {
      var i :| 0 <= i < |rows| && rows[i].domain in taken;
      AcceptedDropsRow(taken, rows, i);
    } else if exists i, j :: 0 <= i < j < |rows| && rows[i].domain == rows[j].domain {
      var i, j :| 0 <= i < j < |rows| && rows[i].domain == rows[j].domain;
      AcceptedDropsRow(taken, rows, j);
    } else {
      AcceptedAllFresh(taken, rows);
    }
  }

  /** Concatenation of a sequence of chunks. */
  function Flatten<T>(chunks: seq<seq<T>>): (flat: seq<T>)
  {
    if chunks == [] then [] else Flatten(chunks[..|chunks| - 1]) + chunks[|chunks| - 1]
  }

  /**
   * PHP's `array_chunk($rows, $size)`: consecutive pieces of `size` elements, the last one
   * possibly shorter, none empty.
   */
  function Chunks<T>(rows: seq<T>, size: nat): (chunks: seq<seq<T>>)
    requires size > 0
    ensures Flatten(chunks) == rows
    ensures forall k :: 0 <= k < |chunks| ==> 0 < |chunks[k]| <= size
    ensures forall k :: 0 <= k < |chunks| - 1 ==> |chunks[k]| == size
    decreases |rows|
  {
    if |rows| <= size then
      (if rows == [] then [] else [rows])
    else
      var rest := Chunks(rows[size..], size);
      FlattenCons(rows[..size], rest);
      assert rows[..size] + rows[size..] == rows;
      [rows[..size]] + rest
  }

  lemma {:induction false} FlattenCons<T>(head: seq<T>, tail: seq<seq<T>>)
    ensures Flatten([head] + tail) == head + Flatten(tail)
    decreases |tail|
  {
    if tail != [] {
      var all := [head] + tail;
      assert all[..|all| - 1] == [head] + tail[..|tail| - 1];
      FlattenCons(head, tail[..|tail| - 1]);
    } else {
      assert [head] + tail == [head];
      assert [head][..0] == [];
    }
  }

  /** Inserting `a + b` in one statement is inserting `a`, then `b`. */
  lemma {:induction false} InsertAllAppend(s: Store, a: seq<Row>, b: seq<Row>)
    requires Valid(s)
    ensures var first := InsertAll(s, a);
      var second := InsertAll(first.store, b);
      InsertAll(s, a + b) == Inserted(second.store, first.count + second.count)
    decreases |b|
  {
    if b == [] {
      assert a + b == a;
    } else {
      var ab := a + b;
      var last := b[|b| - 1];
      assert ab[..|ab| - 1] == a + b[..|b| - 1];
      assert ab[|ab| - 1] == last;
      InsertAllAppend(s, a, b[..|b| - 1]);
      var first := InsertAll(s, a);
      var prev := InsertAll(first.store, b[..|b| - 1]);
      var p := InsertAll(s, a + b[..|b| - 1]);
      assert p == Inserted(prev.store, first.count + prev.count);
      var q := InsertOne(prev.store, last);
      assert InsertAll(first.store, b) == Inserted(q.store, prev.count + q.count);
      assert InsertAll(s, ab) == Inserted(q.store, p.count + q.count);
    }
  }

  /**
   * The chunked bulk insert: one INSERT IGNORE per chunk of 500 rows, summing the counts.
   * Its outcome is that of a single insert-or-ignore over the whole list.
   */
  method BulkInsertOrganizations(s: Store, rows: seq<Row>) returns (r: Store, totalInserted: nat)
    requires Valid(s)
    ensures Inserted(r, totalInserted) == InsertAll(s, rows)
    ensures totalInserted <= |rows|
  {
    var chunks := Chunks(rows, ChunkSize);
    r := s;
    totalInserted := 0;
    var k := 0;
    while k < |chunks|
      invariant 0 <= k <= |chunks|
      invariant Inserted(r, totalInserted) == InsertAll(s, Flatten(chunks[..k]))
    {
      var chunk := chunks[k];
      assert chunks[..k + 1][..k] == chunks[..k];
      InsertAllAppend(s, Flatten(chunks[..k]), chunk);
      var inserted := InsertAll(r, chunk);
      r := inserted.store;
      totalInserted := totalInserted + inserted.count;
      k := k + 1;
    }
    assert chunks[..|chunks|] == chunks;
  }

  /** `Organization::where('batch_id', $b)->get()`: the rows of batch `b`, keyed by id. */
  function GetOrganizationsByBatch(s: Store, b: BatchId): (rows: map<OrgId, Organization>)
    ensures forall id :: id in rows <==> id in s.orgs && s.orgs[id].batchId == Some(b)
    ensures forall id :: id in rows ==> rows[id] == s.orgs[id]
  {
    map id | id in s.orgs && s.orgs[id].batchId == Some(b) :: s.orgs[id]
  }
}

=== FILE: progress.dfy ===
/**
 * Whole-system behaviour: any interleaving of ingestion calls, task deliveries and
 * give-up callbacks, each taken as one atomic step. Proves that a status never returns
 * to `pending` and that a batch's `processed_organizations` counts exactly the rows a
 * delivery moved from `pending` to `completed`, never exceeding `total_organizations`.
 */
module Progress {
  import opened Common
  import opened Schema
  import Job = OnboardingJob
  import Service = BulkOnboardService

  /** One atomic step of the system. */
  datatype Event =
    | Ingest(inputs: seq<Service.OrgInput>, fault: Option<Service.Fault>)  // one service call
    | Deliver(id: OrgId, action: Job.ActionOutcome, now: Time)            // one `handle` run
    | GiveUp(id: OrgId, message: string)                                  // one `failed` callback

  /** The event is a queue event, not an ingestion. */
  predicate IsJobEvent(e: Event)
  {
    e.Deliver? || e.GiveUp?
  }

  ghost predicate JobOnly(trace: seq<Event>)
  {
    forall i :: 0 <= i < |trace| ==> IsJobEvent(trace[i])
  }

  /**
   * The shape of the tables is kept: same keys, same domain and batch id on every row,
   * same batch keys, same counters. Only statuses, stamps, reasons and batch counts move.
   */
  ghost predicate SameShape(s: Store, r: Store)
  {
    && r.orgs.Keys == s.orgs.Keys
    && (forall x :: x in s.orgs ==> r.orgs[x].domain == s.orgs[x].domain && r.orgs[x].batchId == s.orgs[x].batchId)
    && r.batches.Keys == s.batches.Keys
    && r.nextOrgId == s.nextOrgId && r.nextBatchId == s.nextBatchId
  }

  /** A change that keeps the shape keeps the store invariants. */
  lemma SameShapeKeepsInvariants(s: Store, r: Store)
    requires Valid(s) && BatchRefsBelow(s) && SameShape(s, r)
    ensures Valid(r) && BatchRefsBelow(r)
  {
    forall i, j ensures !DomainClash(r.orgs, i, j) {
      if DomainClash(r.orgs, i, j) {
        assert DomainClash(s.orgs, i, j);
      }
    }
  }

  /** `handle` and `failed` keep the shape of the tables. */
  lemma JobStepShape(s: Store, e: Event)
    requires IsJobEvent(e)
    ensures e.Deliver? ==> SameShape(s, Job.Handle(s, e.id, e.action, e.now).store)
    ensures e.GiveUp? ==> SameShape(s, Job.FailedHandler(s, e.id, e.message))
  {
  }

  /**
   * The store after one service call: a fault before the commit rolls everything back;
   * otherwise, with or without a fault after the commit, the committed store remains.
   */
  function IngestStore(s: Store, inputs: seq<Service.OrgInput>, fault: Option<Service.Fault>): (r: Store)
    requires Valid(s) && BatchRefsBelow(s)
    ensures r == Service.Process(s, inputs, fault).store
    ensures Valid(r) && BatchRefsBelow(r)
    ensures Service.RollsBack(fault) ==> r == s
    ensures forall id :: id in s.orgs ==> id in r.orgs && r.orgs[id] == s.orgs[id]
  {
    if Service.RollsBack(fault) then s
    else
      Service.CommitBatch(s, inputs);
      Service.Commit(s, inputs).store
  }

  /** One step of the system from a store satisfying the invariants, which it keeps. */
  function Step(s: Store, e: Event): (r: Store)
    requires Valid(s) && BatchRefsBelow(s)
    ensures Valid(r) && BatchRefsBelow(r)
    ensures IsJobEvent(e) ==> SameShape(s, r)
  {
    match e
    case Ingest(inputs, fault) => IngestStore(s, inputs, fault)
    case Deliver(id, action, now) =>
      var r := Job.Handle(s, id, action, now).store;
      JobStepShape(s, e);
      SameShapeKeepsInvariants(s, r);
      r
    case GiveUp(id, message) =>
      var r := Job.FailedHandler(s, id, message);
      JobStepShape(s, e);
      SameShapeKeepsInvariants(s, r);
      r
  }

  /** The store after a whole trace, events applied in order; the invariants hold throughout. */
  function Run(s: Store, trace: seq<Event>): (r: Store)
    requires Valid(s) && BatchRefsBelow(s)
    ensures Valid(r) && BatchRefsBelow(r)
    decreases |trace|
  {
    if |trace| == 0 then s else Step(Run(s, trace[..|trace| - 1]), trace[|trace| - 1])
  }

  /** Queue events alone never change the shape of the tables. */
  lemma {:induction false} JobRunShape(s: Store, trace: seq<Event>)
    requires Valid(s) && BatchRefsBelow(s) && JobOnly(trace)
    ensures SameShape(s, Run(s, trace))
    decreases |trace|
  {
    if |trace| > 0 {
      var prefix := trace[..|trace| - 1];
      JobOnlyPrefix(trace);
      JobRunShape(s, prefix);
    }
  }

  // ---------------------------------------------------------------------------
  // A status never returns to `pending`.
  // ---------------------------------------------------------------------------

  /** No step writes `pending` over another status, and no step deletes a row. */
  lemma StepKeepsNonPending(s: Store, e: Event, id: OrgId)
    requires Valid(s) && BatchRefsBelow(s)
    requires id in s.orgs && s.orgs[id].status != Pending
    ensures id in Step(s, e).orgs && Step(s, e).orgs[id].status != Pending
  {
  }

  /** Over any trace, a row that has left `pending` stays out of it. */
  lemma {:induction false} NeverPendingAgain(s: Store, trace: seq<Event>, id: OrgId)
    requires Valid(s) && BatchRefsBelow(s)
    requires id in s.orgs && s.orgs[id].status != Pending
    ensures id in Run(s, trace).orgs && Run(s, trace).orgs[id].status != Pending
    decreases |trace|
  {
    if |trace| > 0 {
      var prefix := trace[..|trace| - 1];
      NeverPendingAgain(s, prefix, id);
      StepKeepsNonPending(Run(s, prefix), trace[|trace| - 1], id);
    }
  }

  /** A second delivery of the task for a row, whatever either outcome, changes nothing. */
  lemma HandleTwiceIsNoOp(s: Store, id: OrgId, first: Job.ActionOutcome, second: Job.ActionOutcome,
                          t1: Time, t2: Time)
    requires id in s.orgs
    ensures var r1 := Job.Handle(s, id, first, t1).store;
      Job.Handle(r1, id, second, t2) == Job.HandleResult(r1, None)
  {
  }

  // ---------------------------------------------------------------------------
  // processed_organizations + pending rows <= total_organizations.
  // ---------------------------------------------------------------------------

  /** Batch `b`'s count plus its still-pending rows stays within its total. */
  ghost predicate BatchBoundAt(s: Store, b: BatchId)
    requires b in s.batches
  {
    s.batches[b].processedOrganizations + |PendingOf(s, b)| <= s.batches[b].totalOrganizations
  }

  ghost predicate BatchBound(s: Store)
  {
    forall b :: b in s.batches ==> BatchBoundAt(s, b)
  }

  lemma SubsetCard<T>(a: set<T>, b: set<T>)
    requires a <= b
    ensures |a| <= |b|
  {
    assert b == a + (b - a);
  }

  /**
   * Row `id` left `pending` and nothing else changed in the rows' batch ids or statuses:
   * every batch loses `id` from its pending set, and nothing else.
   */
  lemma PendingAfterUpdate(s: Store, r: Store, id: OrgId)
    requires id in s.orgs && r.orgs.Keys == s.orgs.Keys
    requires forall x :: x in s.orgs && x != id ==> r.orgs[x] == s.orgs[x]
    requires r.orgs[id].batchId == s.orgs[id].batchId && r.orgs[id].status != Pending
    ensures forall b :: PendingOf(r, b) == PendingOf(s, b) - {id}
  {
  }

  /** A delivery keeps the bound on every existing batch. */
  lemma HandleKeepsBound(s: Store, id: OrgId, action: Job.ActionOutcome, now: Time, b: BatchId)
    requires b in s.batches && BatchBoundAt(s, b)
    ensures var r := Job.Handle(s, id, action, now).store;
      b in r.batches && BatchBoundAt(r, b)
  {
    var r := Job.Handle(s, id, action, now).store;
    if id in s.orgs && s.orgs[id].status == Pending {
      PendingAfterUpdate(s, r, id);
      if s.orgs[id].batchId == Some(b) {
        assert id in PendingOf(s, b);
        assert |PendingOf(r, b)| == |PendingOf(s, b)| - 1;
      } else {
        assert PendingOf(r, b) == PendingOf(s, b);
      }
    }
  }

  /** A give-up callback keeps the bound on every existing batch. */
  lemma GiveUpKeepsBound(s: Store, id: OrgId, message: string, b: BatchId)
    requires b in s.batches && BatchBoundAt(s, b)
    ensures var r := Job.FailedHandler(s, id, message);
      b in r.batches && BatchBoundAt(r, b)
  {
    var r := Job.FailedHandler(s, id, message);
    if id in s.orgs {
      PendingAfterUpdate(s, r, id);
      SubsetCard(PendingOf(r, b), PendingOf(s, b));
    }
  }

  /** An ingestion leaves existing batches, and the pending rows that point at them, alone. */
  lemma IngestKeepsBound(s: Store, inputs: seq<Service.OrgInput>, fault: Option<Service.Fault>, b: BatchId)
    requires Valid(s) && BatchRefsBelow(s)
    requires b in s.batches && BatchBoundAt(s, b)
    ensures var r := IngestStore(s, inputs, fault);
      && b in r.batches && BatchBoundAt(r, b)
      && r.batches[b] == s.batches[b]
      && PendingOf(r, b) == PendingOf(s, b)
  {
    if !Service.RollsBack(fault) {
      Service.CommitBatch(s, inputs);
      Service.CommitRows(s, inputs);
      var r := IngestStore(s, inputs, fault);
      assert r == Service.Commit(s, inputs).store;
      assert b < s.nextBatchId;
      forall x | x in r.orgs && x !in s.orgs ensures r.orgs[x].batchId != Some(b) {
        assert x in Service.Commit(s, inputs).dispatched;
      }
      assert PendingOf(r, b) == PendingOf(s, b);
    }
  }

  /** The batch an ingestion creates starts at count 0, with total = input length and at most that many pending rows. */
  lemma IngestBoundsNewBatch(s: Store, inputs: seq<Service.OrgInput>)
    requires Valid(s) && BatchRefsBelow(s)
    ensures var r := IngestStore(s, inputs, None);
      && s.nextBatchId in r.batches && BatchBoundAt(r, s.nextBatchId)
      && r.batches[s.nextBatchId].processedOrganizations == 0
      && r.batches[s.nextBatchId].totalOrganizations == |inputs|
      && |PendingOf(r, s.nextBatchId)| <= |inputs|
  {
    Service.CommitBatch(s, inputs);
    Service.CommitIsCommitted(s, inputs);
    var c := Service.Commit(s, inputs);
    var b := s.nextBatchId;
    assert PendingOf(c.store, b) <= c.dispatched;
    SubsetCard(PendingOf(c.store, b), c.dispatched);
  }

  /** Every step keeps the bound on every batch. */
  lemma StepKeepsBatchBound(s: Store, e: Event)
    requires Valid(s) && BatchRefsBelow(s) && BatchBound(s)
    ensures BatchBound(Step(s, e))
  {
    var r := Step(s, e);
    forall b | b in r.batches ensures BatchBoundAt(r, b) {
      match e
      case Ingest(inputs, fault) =>
        if b in s.batches {
          IngestKeepsBound(s, inputs, fault, b);
        } else {
          Service.CommitBatch(s, inputs);
          IngestBoundsNewBatch(s, inputs);
        }
      case Deliver(id, action, now) =>
        HandleKeepsBound(s, id, action, now, b);
      case GiveUp(id, message) =>
        GiveUpKeepsBound(s, id, message, b);
    }
  }

  /** From a store within the bound, every trace stays within it. */
  lemma {:induction false} RunKeepsBatchBound(s: Store, trace: seq<Event>)
    requires Valid(s) && BatchRefsBelow(s) && BatchBound(s)
    ensures BatchBound(Run(s, trace))
    decreases |trace|
  {
    if |trace| > 0 {
      var prefix := trace[..|trace| - 1];
      RunKeepsBatchBound(s, prefix);
      StepKeepsBatchBound(Run(s, prefix), trace[|trace| - 1]);
    }
  }

  /** The empty database is within the bound, so every reachable database is. */
  lemma ReachableWithinBound(trace: seq<Event>)
    ensures var r := Run(EmptyStore, trace);
      forall b :: b in r.batches ==> r.batches[b].processedOrganizations <= r.batches[b].totalOrganizations
  {
    RunKeepsBatchBound(EmptyStore, trace);
    var r := Run(EmptyStore, trace);
    forall b | b in r.batches
      ensures r.batches[b].processedOrganizations <= r.batches[b].totalOrganizations
    {
      assert BatchBoundAt(r, b);
    }
  }

  // ---------------------------------------------------------------------------
  // processed_organizations counts the completions.
  // ---------------------------------------------------------------------------

  /** The event is a delivery whose action succeeds on a row that is still pending. */
  predicate CompletesPending(s: Store, e: Event)
  {
    e.Deliver? && e.action.Completes? && e.id in s.orgs && s.orgs[e.id].status == Pending
  }

  /** The rows some delivery of the trace moved from `pending` to `completed`. */
  ghost function CompletedBy(s: Store, trace: seq<Event>): (ids: set<OrgId>)
    requires Valid(s) && BatchRefsBelow(s)
    decreases |trace|
  {
    if |trace| == 0 then {}
    else
      var prefix := trace[..|trace| - 1];
      var e := trace[|trace| - 1];
      CompletedBy(s, prefix) + (if CompletesPending(Run(s, prefix), e) then {e.id} else {})
  }

  /** Those of them that belong to batch `b`. */
  ghost function CompletedIn(s: Store, trace: seq<Event>, b: BatchId): (ids: set<OrgId>)
    requires Valid(s) && BatchRefsBelow(s)
  {
    set id | id in CompletedBy(s, trace) && id in s.orgs && s.orgs[id].batchId == Some(b)
  }

  /** A completed row exists from the start and is no longer pending. */
  lemma {:induction false} CompletedAreDone(s: Store, trace: seq<Event>)
    requires Valid(s) && BatchRefsBelow(s) && JobOnly(trace)
    ensures forall id :: id in CompletedBy(s, trace) ==>
      id in s.orgs && id in Run(s, trace).orgs && Run(s, trace).orgs[id].status != Pending
    decreases |trace|
  {
    if |trace| > 0 {
      var prefix := trace[..|trace| - 1];
      var e := trace[|trace| - 1];
      JobOnlyPrefix(trace);
      CompletedAreDone(s, prefix);
      JobRunShape(s, prefix);
      var p := Run(s, prefix);
      forall id | id in CompletedBy(s, trace)
        ensures id in s.orgs && id in Run(s, trace).orgs && Run(s, trace).orgs[id].status != Pending
      {
        if id in CompletedBy(s, prefix) {
          StepKeepsNonPending(p, e, id);
        } else {
          assert CompletesPending(p, e) && id == e.id;
        }
      }
    }
  }

  /** A queue-only trace's prefix is queue-only, and so is its last event. */
  lemma JobOnlyPrefix(trace: seq<Event>)
    requires JobOnly(trace) && |trace| > 0
    ensures JobOnly(trace[..|trace| - 1]) && IsJobEvent(trace[|trace| - 1])
  {
    var prefix := trace[..|trace| - 1];
    forall i | 0 <= i < |prefix| ensures IsJobEvent(prefix[i]) {
      assert prefix[i] == trace[i];
    }
  }

  /** One queue event raises batch `b`'s counter by one exactly when it completes a pending row of `b`. */
  lemma JobStepCount(p: Store, e: Event, b: BatchId)
    requires Valid(p) && BatchRefsBelow(p) && IsJobEvent(e) && b in p.batches
    ensures b in Step(p, e).batches
    ensures Step(p, e).batches[b].processedOrganizations
         == p.batches[b].processedOrganizations
            + (if CompletesPending(p, e) && p.orgs[e.id].batchId == Some(b) then 1 else 0)
  {
  }

  /** A run is its prefix's run followed by the last step. */
  lemma RunSnoc(s: Store, trace: seq<Event>)
    requires Valid(s) && BatchRefsBelow(s) && |trace| > 0
    ensures Run(s, trace) == Step(Run(s, trace[..|trace| - 1]), trace[|trace| - 1])
  {
  }

  /** Batch `b`'s completions grow by the row the last event completes, if it is in `b`. */
  lemma CompletedInSnoc(s: Store, trace: seq<Event>, b: BatchId)
    requires Valid(s) && BatchRefsBelow(s) && |trace| > 0
    ensures var prefix, e := trace[..|trace| - 1], trace[|trace| - 1];
      CompletedIn(s, trace, b)
      == CompletedIn(s, prefix, b)
         + (if CompletesPending(Run(s, prefix), e) && e.id in s.orgs && s.orgs[e.id].batchId == Some(b)
            then {e.id} else {})
  {
  }

  /** The last event adds one to batch `b`'s completions exactly when it bumps `b`'s counter. */
  lemma CompletedInStep(s: Store, trace: seq<Event>, b: BatchId)
    requires Valid(s) && BatchRefsBelow(s) && JobOnly(trace) && |trace| > 0
    ensures var p, e := Run(s, trace[..|trace| - 1]), trace[|trace| - 1];
      |CompletedIn(s, trace, b)|
      == |CompletedIn(s, trace[..|trace| - 1], b)|
         + (if CompletesPending(p, e) && p.orgs[e.id].batchId == Some(b) then 1 else 0)
  {
    var prefix := trace[..|trace| - 1];
    var p, e := Run(s, prefix), trace[|trace| - 1];
    JobOnlyPrefix(trace);
    JobRunShape(s, prefix);
    CompletedAreDone(s, prefix);
    CompletedInSnoc(s, trace, b);
    if CompletesPending(p, e) {
      assert e.id !in CompletedIn(s, prefix, b);
    }
  }

  /**
   * Over queue events alone, batch `b`'s counter rises by exactly the number of its rows
   * that a delivery completed: failures, repeated deliveries and give-ups add nothing.
   */
  lemma {:induction false} ProcessedCountsCompletions(s: Store, trace: seq<Event>, b: BatchId)
    requires Valid(s) && BatchRefsBelow(s) && JobOnly(trace)
    requires b in s.batches
    ensures b in Run(s, trace).batches
    ensures Run(s, trace).batches[b].processedOrganizations
         == s.batches[b].processedOrganizations + |CompletedIn(s, trace, b)|
    decreases |trace|
  {
    if |trace| > 0 {
      var prefix := trace[..|trace| - 1];
      JobOnlyPrefix(trace);
      ProcessedCountsCompletions(s, prefix, b);
      var p, e := Run(s, prefix), trace[|trace| - 1];
      RunSnoc(s, trace);
      JobStepCount(p, e, b);
      CompletedInStep(s, trace, b);
    }
  }

  /**
   * The system property for one ingestion followed by queue events: the new batch's
   * counter equals the number of its rows completed by a delivery, and stays within
   * the input length stored as its total.
   */
  lemma BatchProgressAfterIngest(s: Store, inputs: seq<Service.OrgInput>, trace: seq<Event>)
    requires Valid(s) && BatchRefsBelow(s) && JobOnly(trace)
    ensures var s1 := IngestStore(s, inputs, None);
      var b := s.nextBatchId;
      var r := Run(s1, trace);
      && b in r.batches
      && r.batches[b].processedOrganizations == |CompletedIn(s1, trace, b)|
      && r.batches[b].processedOrganizations <= r.batches[b].totalOrganizations == |inputs|
  {
    var s1 := IngestStore(s, inputs, None);
    var b := s.nextBatchId;
    Service.CommitBatch(s, inputs);
    IngestBoundsNewBatch(s, inputs);
    ProcessedCountsCompletions(s1, trace, b);
    RunKeepsBoundAt(s1, trace, b);
  }

  /**
   * The new batch's counter never exceeds the number of tasks the call dispatched. When
   * an item was skipped as a duplicate, that is fewer than the stored total, so the
   * counter of such a batch never reaches `total_organizations`.
   */
  lemma ProcessedWithinDispatched(s: Store, inputs: seq<Service.OrgInput>, trace: seq<Event>)
    requires Valid(s) && BatchRefsBelow(s) && JobOnly(trace)
    ensures var s1 := IngestStore(s, inputs, None);
      var b := s.nextBatchId;
      var r := Run(s1, trace);
      && b in r.batches
      && r.batches[b].processedOrganizations <= |Service.Commit(s, inputs).dispatched|
      && (|Service.Commit(s, inputs).dispatched| < |inputs| ==>
            r.batches[b].processedOrganizations < r.batches[b].totalOrganizations)
  {
    var s1 := IngestStore(s, inputs, None);
    var b := s.nextBatchId;
    BatchProgressAfterIngest(s, inputs, trace);
    CompletedAreDone(s1, trace);
    assert CompletedIn(s1, trace, b) <= Service.Commit(s, inputs).dispatched;
    SubsetCard(CompletedIn(s1, trace, b), Service.Commit(s, inputs).dispatched);
  }

  /** The bound on one batch survives every queue event. */
  lemma {:induction false} RunKeepsBoundAt(s: Store, trace: seq<Event>, b: BatchId)
    requires Valid(s) && BatchRefsBelow(s) && JobOnly(trace)
    requires b in s.batches && BatchBoundAt(s, b)
    ensures b in Run(s, trace).batches && BatchBoundAt(Run(s, trace), b)
    ensures Run(s, trace).batches[b].totalOrganizations == s.batches[b].totalOrganizations
    decreases |trace|
  {
    if |trace| > 0 {
      var prefix := trace[..|trace| - 1];
      var e := trace[|trace| - 1];
      JobOnlyPrefix(trace);
      RunKeepsBoundAt(s, prefix, b);
      var p := Run(s, prefix);
      RunSnoc(s, trace);
      JobStepKeepsBound(p, e, b);
    }
  }

  /** A queue event keeps batch `b` within its bound and leaves its total alone. */
  lemma JobStepKeepsBound(p: Store, e: Event, b: BatchId)
    requires Valid(p) && BatchRefsBelow(p) && IsJobEvent(e)
    requires b in p.batches && BatchBoundAt(p, b)
    ensures b in Step(p, e).batches && BatchBoundAt(Step(p, e), b)
    ensures Step(p, e).batches[b].totalOrganizations == p.batches[b].totalOrganizations
  {
    match e
    case Deliver(id, action, now) => HandleKeepsBound(p, id, action, now, b);
    case GiveUp(id, message) => GiveUpKeepsBound(p, id, message, b);
  }
}

=== FILE: schema.dfy ===
/**
 * The persisted tables: `organizations` (one row per onboarding candidate, unique on
 * `domain`) and `batches` (aggregate progress), with auto-increment identifiers.
 */
module Schema {
  import opened Common

  type OrgId = nat
  type BatchId = nat
  /** An abstract clock reading; wall-clock values are not modelled. */
  type Time = nat

  /** The `status` enum column of `organizations`. */
  datatype Status = Pending | Processing | Completed | Failed

  /** Value of `status` when an insert does not give one. */
  const DefaultStatus: Status := Pending

  /** One `organizations` row; `name` and `domain` are NOT NULL, the rest are nullable. */
  datatype Organization = Organization(
    name: string,
    domain: string,
    contactEmail: Option<string>,
    status: Status,
    batchId: Option<BatchId>,
    processedAt: Option<Time>,
    failedReason: Option<string>)

  /** One `batches` row. `status` is a free-form tag; only "pending" is ever written. */
  datatype Batch = Batch(status: string, totalOrganizations: nat, processedOrganizations: nat)

  /**
   * The database: both tables plus the next value of each auto-increment counter.
   * Timestamps (`created_at`, `updated_at`) are not modelled.
   */
  datatype Store = Store(
    orgs: map<OrgId, Organization>,
    batches: map<BatchId, Batch>,
    nextOrgId: OrgId,
    nextBatchId: BatchId)

  /** Both tables empty, counters at their first value. */
  const EmptyStore: Store := Store(map[], map[], 1, 1)

  /** The domains currently stored. */
  function Domains(s: Store): (domains: set<string>)
  {
    set id | id in s.orgs :: s.orgs[id].domain
  }

  /** Two different rows share a domain. */
  predicate DomainClash(orgs: map<OrgId, Organization>, i: OrgId, j: OrgId)
  {
    i in orgs && j in orgs && i != j && orgs[i].domain == orgs[j].domain
  }

  /** The UNIQUE index on `organizations.domain`. */
  ghost predicate UniqueDomains(orgs: map<OrgId, Organization>)
  {
    forall i, j :: !DomainClash(orgs, i, j)
  }

  /** Every stored id lies below its auto-increment counter, so the counter is fresh. */
  ghost predicate IdsBelowCounters(s: Store)
  {
    && (forall id :: id in s.orgs ==> id < s.nextOrgId)
    && (forall b :: b in s.batches ==> b < s.nextBatchId)
  }

  /** The invariant every reachable database satisfies. */
  ghost predicate Valid(s: Store)
  {
    IdsBelowCounters(s) && UniqueDomains(s.orgs)
  }

  /**
   * No row refers to a batch id the counter has not handed out yet. The schema has no
   * foreign key, so this holds because rows only get a batch id from a created batch.
   */
  ghost predicate BatchRefsBelow(s: Store)
  {
    forall id :: id in s.orgs && s.orgs[id].batchId.Some? ==> s.orgs[id].batchId.value < s.nextBatchId
  }

  /** Ids of the rows of batch `b` still in status `pending`. */
  function PendingOf(s: Store, b: BatchId): (ids: set<OrgId>)
  {
    set id | id in s.orgs && s.orgs[id].batchId == Some(b) && s.orgs[id].status == Pending
  }
}
